=== FILE: README.md ===
# hypervel/redis: connection dispatcher and command translation, in Dafny

This project models the core of the hypervel/redis package. That package puts a
pooled, coroutine-scoped connection manager and a command-translation layer in
front of the phpredis client. The model has three parts.

- **Translation layer** (`RedisConnection`). While a connection's
  transformation flag is on, a Laravel-style call is reshaped into a phpredis
  call by a `call<Name>` routine, and the native reply is normalised. `get` and
  `mget` map `false` to null. `setnx`/`hsetnx` map a boolean to 1/0. `lrem`
  swaps its count and value arguments. `zadd` pulls out its option words. The
  `limit` option of `zrangebyscore` is rewritten, and so on. `__call` chooses
  between the subscribe path, a routine, and forwarding the call verbatim, and
  hands any exception to the base class's retry. The scan methods apply option
  defaults and the rule that ends an iteration. The subscribe path lifts the
  read timeout for the duration of the subscription, then restores it. It also
  adapts the native callback shapes to `(message, channel)`.
- **Dispatcher** (`Redis`, `RedisProxy`). Each command runs on the connection
  pinned under `redis.connection.<pool>`, or else on one leased from the pool.
  It reports one `CommandExecuted` event. Then it leaves an existing pin alone,
  or pins the connection for `multi`/`pipeline`/`select` with a deferred
  release, or releases the connection at once.
- **Multi/exec coordinator** (`MultiExec` trait) and **factory**
  (`RedisFactory`). `pipeline` and `transaction` run a callback on the batch
  handle, call `exec`, and release a pin they created. The factory holds one
  proxy per configured pool.

PHP values are the datatype `Php.Val`. An array is an ordered sequence of
key/value entries, each key an integer or a string as PHP files it. An object
carries its identity and, when its class defines `__toString`, the string that
method returns. Exceptions are `Php.Outcome.Throw` values. Parameter binding
follows `declare(strict_types=1)`, modelled in `Params`: a missing argument
raises `ArgumentCountError`, and an argument of the wrong type raises
`TypeError`.

The native client and the base Hyperf connection class are not modelled. They
are a `Native.Client` record of functions, given as a parameter: the reply to
each native call, the cursor a scan leaves behind, the base retry, the base
scan methods, and the native client object itself. Each operation returns the
native calls it made, in order.

A call on a connection reaches one of its own public methods when the name is
one (the scan family, `release`, `shouldTransform`, `getShouldTransform`,
`client`, `serialized`, `compressed`, `pack`); only other names go through
`__call`. So `release` called through the dispatcher returns the connection to
the pool twice, once in the connection's `release()` and once in the
dispatcher's `finally` (`Dispatcher.ReleaseThroughDispatcher`).

The coroutine machinery is explicit state in `Dispatcher.State`:

- the context is a map, and a slot set to null is absent;
- the pool is a log of leases;
- `release()` is a log of released connection ids;
- `defer` is a list of pending releases, run last-in first-out by
  `Dispatcher.RunDeferred`.

Two behaviours of the dispatcher are modelled as the code has them. Both follow
from the bare `return;` statements inside `finally` (src/Redis.php:54 and :68).
Under PHP semantics, those end the call with null.

- On a pinned connection the command's result is discarded, and so is its
  exception.
- For `multi`/`pipeline`/`select` with no pin, the result is also null, so the
  native batch handle never reaches the caller.

As a consequence, the coordinator's `tap($instance, $callback)->exec()` runs on
null, so every batch with a callback ends in an exception. This is proved as
`MultiExec.BatchWithCallbackRaises`. The release bookkeeping is still correct
(`MultiExec.ReleasedOnceOverall`). The repository's tests expect the handle and
the result to come through on those branches (tests/RedisTest.php:55-68,
115-134; tests/MultiExecTest.php:50-73). The model does not claim that.
`MultiExec.RunBatch` states what the coordinator does with a real handle.

src/Redis.php, as given, does not `use` the `MultiExec` trait. The trait's own
`instanceof` test presumes the dispatcher, so the model applies the trait's
dispatcher branch to the dispatcher.

## Model

| member | source | states |
|---|---|---|
| Php.IntCast | src/Redis.php:60 | `(int)` keeps integers, maps true/false/null to 1/0/0, and a string to a value saturated to the 64-bit range |
| Php.IntCastReadsDecimal | src/Redis.php:60 | `(int)` of a string reads back the printed integer. It skips leading whitespace, ignores trailing text that cannot continue the number, and saturates outside the 64-bit range |
| Php.IntCastDecimalRoundTrip | src/Redis.php:60 | printing an integer in range and casting it back with `(int)` gives the same integer, so `select("2")` selects database 2 |
| Php.StringCast | src/RedisConnection.php:702 | `(string)`: a string stays, an integer prints in decimal, true/false/null give "1"/""/"", an array gives "Array", an object gives its `__toString`; an object without `__toString` and a closure raise `Error` |
| Php.StringKey | src/RedisConnection.php:414-416 | the key a string becomes in a PHP array: it becomes an integer key only when it is `-` or nothing, then digits without a leading zero, within the 64-bit range, and then it prints as that integer; any other string stays a string key |
| Php.PlainDigitsPrint | src/RedisConnection.php:414-416 | digits without a leading zero print back as themselves from their value, the fact behind `StringKey`'s integer case |
| Php.StringKeyCanonical | src/RedisConnection.php:414-416 | a string is an integer key exactly when it is the decimal form of an integer in range, and it is then that integer |
| Php.StringKeyInjective | src/RedisConnection.php:414-416 | distinct strings give distinct keys |
| Php.CombineKey | src/RedisConnection.php:414-416 | the key `array_combine` files under: an integer stays an integer; a string, or an object through `__toString`, gives its `StringKey` (`"5"` is the key 5); null and false give `""`, true gives 1, an array gives `"Array"`; an object without `__toString` or a closure raises |
| Php.CombineKeyIsStringKey | src/RedisConnection.php:414-416 | every value but an integer is filed under the key of its `(string)` form, and has no key exactly when it has no string form |
| Php.Wrap | src/RedisConnection.php:737 | `Arr::wrap`: null is `[]`, an array stays, any other value becomes a one-item list |
| Php.Assign | src/RedisConnection.php:503-506 | `$a[$k] = $v`: afterwards `$k` reads `$v`, every other key reads as before, and an existing key keeps its position |
| Params.Bind | src/RedisConnection.php:375 | binding succeeds exactly when every passed argument has its declared type and every missing one has a default; the bound values are the arguments or the defaults, and the variadic tail is the extra arguments |
| Handlers.ApplyPost | src/RedisConnection.php:355-370 | each reply normalisation: false to null, element-wise false to null keeping keys, `(int)`, `array_values`, empty to null; a non-array where an array is needed raises |
| Handlers.RunPlan | src/RedisConnection.php:688-695 | a routine makes exactly its native call and post-processes a normal reply; `evalsha` loads the script, then calls `evalSha` with the digest the load returned, the argument list and the key count, and returns that reply; a failed load raises with no second call |
| Handlers.CallGet | src/RedisConnection.php:355-360 | `get` binds a string key and calls native `get` with it, mapping false to null |
| Handlers.CallMget | src/RedisConnection.php:365-370 | `mget` binds an array and calls native `mGet` with it, element-wise false to null |
| Handlers.SetOptions | src/RedisConnection.php:378-381 | null options for a falsy resolution, otherwise exactly `[flag, resolution => ttl]`, the resolution keyed as a PHP array literal keys it |
| Handlers.CallSet | src/RedisConnection.php:375-382 | the accepted argument types, and the native `set` call with null options or `[flag, resolution => ttl]` according to the resolution |
| Handlers.CallSetnx | src/RedisConnection.php:387-390 | native `setNx(key, value)` with the reply cast to int |
| Handlers.SingleOrList | src/RedisConnection.php:397-399 | one variadic item stands for itself, any other number is passed as a list |
| Handlers.CallHmget | src/RedisConnection.php:395-404 | native `hMGet(key, fields)` with the reply's values in order, keys dropped |
| Handlers.CombineFrom | src/RedisConnection.php:414-416 | pairing succeeds exactly when every even-position item has a key form, and otherwise raises `Error` |
| Handlers.CombineFromKeys | src/RedisConnection.php:414-416 | every key already present stays, and every even-position item ends up as a key |
| Handlers.CombineFromKeepsKeys | src/RedisConnection.php:414-416 | a later pair only overwrites a value: a key already present is still present after the rest of the list is combined |
| Handlers.Combine | src/RedisConnection.php:414-416 | `array_combine` of the even and odd positions: `ValueError` exactly for an odd count, success exactly when every key has a key form, and then every key is present |
| Handlers.CallHmset | src/RedisConnection.php:409-420 | one argument is forwarded unchanged; an even flat list becomes the combined map; an odd one raises `ValueError`; a field with no key form (an object without `__toString`, or a closure) raises `Error` |
| Handlers.CallHsetnx | src/RedisConnection.php:425-428 | native `hSetNx(hash, field, value)` with the reply cast to int |
| Handlers.CallLrem | src/RedisConnection.php:433-436 | native `lRem(key, value, count)`: count and value swapped, nothing else changed |
| Handlers.BlockingPop | src/RedisConnection.php:441-456 | the routine of both `CallBlpop` and `CallBrpop`: every argument forwarded to the native pop, an empty reply becomes null |
| Handlers.CallBlpop | src/RedisConnection.php:441-446 | every argument forwarded to `blPop`, an empty reply becomes null |
| Handlers.CallBrpop | src/RedisConnection.php:451-456 | every argument forwarded to `brPop`, an empty reply becomes null |
| Handlers.CallSpop | src/RedisConnection.php:463-466 | native `sPop(key, count)` with count defaulting to 1 |
| Handlers.Flatten | src/RedisConnection.php:474-477 | a member => score map becomes score, member items in map order |
| Handlers.ExpandTrailing | src/RedisConnection.php:473-478 | only a trailing array is expanded; otherwise the items are unchanged |
| Handlers.SplitOptions | src/RedisConnection.php:482-488 | the option words among the first three positions move, in order, to the options list (at most three); the remaining items keep their order; nothing is lost or added |
| Handlers.CallZadd | src/RedisConnection.php:471-495 | native `zAdd(key, options, ...items)` with the options extracted after the trailing map is expanded |
| Handlers.RewriteLimit | src/RedisConnection.php:502-507 | a keyed `limit` becomes `[offset, count]` in place; list limits, null or missing limits and all other keys are untouched; a non-array limit raises |
| Handlers.RangeByScore | src/RedisConnection.php:500-525 | the routine of both `CallZrangebyscore` and `CallZrevrangebyscore`. It succeeds exactly for a string key, at least three arguments, and an array of options whose limit can be rewritten. Key, min and max are forwarded; the options default to `[]` and have their limit rewritten |
| Handlers.Store | src/RedisConnection.php:530-551 | the routine of both `CallZinterstore` and `CallZunionstore`. Weights default to null, aggregate to `'sum'`, key and keys forwarded |
| Handlers.CallEval | src/RedisConnection.php:680-683 | native `eval(script, args, numkeys)` with the variadic arguments as a list |
| Handlers.CallEvalsha | src/RedisConnection.php:688-695 | the script is loaded first and its digest evaluated with the arguments and key count |
| Handlers.OnlyStringsReadAsync | src/RedisConnection.php:702 | only a string or an object's `__toString` can upper-case to `ASYNC`; no other value's string form does |
| Handlers.CallFlushdb | src/RedisConnection.php:700-707 | asynchronous flush exactly when the first argument is `async` in any letter case, as a string or as an object whose `__toString` returns it; an object without `__toString`, or a closure, raises |
| Handlers.CallExecuteRaw | src/RedisConnection.php:712-715 | the parameters' values spread into `rawCommand` |
| Handlers.Routine | src/RedisConnection.php:313-315 | only `evalsha` makes two native calls; every other routine calls the native method of its own name up to letter case, except `executeRaw`, which calls `rawCommand` |
| Handlers.RunRoutine | src/RedisConnection.php:312-316 | a binding error raises before any native call; otherwise the routine's plan runs |
| HandlerFacts.GetEndToEnd | src/RedisConnection.php:355-360 | one native `get`; false comes back as null, anything else unchanged |
| HandlerFacts.MgetEndToEnd | src/RedisConnection.php:365-370 | same length, keys and order; each false becomes null and every other value is unchanged |
| HandlerFacts.SetnxReportsInt | src/RedisConnection.php:387-428 | `setnx` and `hsetnx` return 1 for true and 0 for false |
| HandlerFacts.LremSwaps | src/RedisConnection.php:433-436 | the native call made is `lRem(key, value, count)` |
| HandlerFacts.BlockingPopEmptyIsNull | src/RedisConnection.php:441-456 | an empty reply is null, a non-empty one is returned unchanged |
| HandlerFacts.HmgetShapesAgree | src/RedisConnection.php:395-404 | variadic fields and a single field list make the same native call |
| HandlerFacts.CombineStep | src/RedisConnection.php:414-416 | combining a fresh field appends its pair |
| HandlerFacts.CombineFromFresh | src/RedisConnection.php:414-416 | `array_combine` of distinct fields is the pairs in order |
| HandlerFacts.HmsetFlatListIsMap | src/RedisConnection.php:409-420 | `hmset(key, f1, v1, f2, v2, ...)` sends the same map as `hmset(key, [f1 => v1, ...])` |
| HandlerFacts.HmsetOddListRaises | src/RedisConnection.php:414-416 | an odd flat list raises `ValueError` |
| HandlerFacts.EvalshaEndToEnd | src/RedisConnection.php:688-695 | `evalsha(script, n, ...args)`: `script load`, then `evalSha(digest, args, n)` with the loaded digest, answering with its reply; a failed load ends it |
| HandlerFacts.EvalAndEvalshaAgree | src/RedisConnection.php:680-695 | `eval` and `evalsha` pass the same argument list and key count |
| HandlerFacts.SplitLeadingOptions | src/RedisConnection.php:482-488 | leading option words go to the options list, the rest stays in order |
| HandlerFacts.ZaddLeadingOptions | src/RedisConnection.php:471-495 | `zadd(key, NX, CH, score, member)` sends `zAdd(key, [NX, CH], score, member)` |
| HandlerFacts.ZaddMapEqualsFlat | src/RedisConnection.php:473-478 | a trailing member => score map makes the same call as the flat score, member items |
| HandlerFacts.LateOptionWordStays | src/RedisConnection.php:482 | an option word after the third position is an ordinary item |
| ScanFamily.ScanOptionsAsWritten | src/RedisConnection.php:553-561 | as written: raises exactly when there is no first argument or it is null; otherwise agrees with the corrected options |
| ScanFamily.ScanOptions | src/RedisConnection.php:553-561 | corrected: an array first argument is the options; otherwise `match` is the pattern or `'*'` when it is missing or null, and `count` is the second argument or 10 |
| ScanFamily.ScanWithoutOptions | src/RedisConnection.php:553-561 | as written a scan without a pattern raises; corrected, it scans with `'*'` and the given count or 10 |
| ScanFamily.PositionalScanOptions | src/RedisConnection.php:557-560 | a positional pattern and count reach the native scan; a missing count is 10 |
| ScanFamily.PageOf | src/RedisConnection.php:583-585 | a native false page is the empty page |
| ScanFamily.ScanResult | src/RedisConnection.php:587 | false exactly when the new cursor is integer 0 and the page is empty, otherwise `[cursor, page]` |
| ScanFamily.ScanAsWritten | src/RedisConnection.php:569-675 | as written: with transformation off the base method runs; on, a missing or null pattern raises `TypeError` before any native call and leaves the cursor alone, otherwise one native scan with the match and count defaults and the termination rule |
| ScanFamily.Scan | src/RedisConnection.php:569-675 | the same with the corrected options: one native scan with the match and count defaults and the termination rule |
| ScanFamily.ScanAsWrittenAgrees | src/RedisConnection.php:553-595 | the two scans agree on every call with a pattern and on every untransformed call; without a pattern the code raises where the corrected scan runs with `'*'` |
| Subscribe.SubscribeArguments | src/RedisConnection.php:735-751 | channels wrapped, callback wrapped in the adapter for the subscribe kind |
| Subscribe.CallSubscribe | src/RedisConnection.php:717-733 | timeout read, set to -1, subscribe, timeout restored to the value read; the restore happens whenever the subscribe was reached; the subscribe's outcome stands when the restore succeeds, and the restore's exception replaces it when the restore throws |
| Subscribe.ChannelAdapterSwaps | src/RedisConnection.php:740-745 | native `(redis, channel, message)` reaches the user callback as `(message, channel)` |
| Subscribe.PatternAdapterSwaps | src/RedisConnection.php:747-750 | native `(redis, pattern, channel, message)` reaches the user callback as `(message, channel)` |
| Connection.ShouldTransform | src/RedisConnection.php:337-342 | sets the flag to the argument, nothing else changes |
| Connection.Release | src/RedisConnection.php:327-332 | the flag is false afterwards |
| Connection.SetDatabase | src/Redis.php:59-61 | the connection's database is the given index |
| Connection.Attempt | src/RedisConnection.php:307-319 | the exact names subscribe/psubscribe take the subscribe path; with the flag on a routine name takes its routine. With the flag on, another casing of `subscribe` (`Subscribe`, `SUBSCRIBE`) reaches `callSubscribe(string $name, array $arguments)`, because `method_exists` ignores case. Its own arguments are bound there: `ArgumentCountError` or `TypeError` when they do not fit. Every other call is forwarded verbatim |
| Connection.MagicCall | src/RedisConnection.php:305-325 | a thrown attempt is handed to the retry with the same name and arguments |
| Connection.OptionEnabled | src/RedisConnection.php:767-781 | one native `getOption`; true exactly when its reply is not the "none" value 0; an exception passes through |
| Connection.PackEach | src/RedisConnection.php:793-800 | one `_pack` per value in order; keys kept and each value replaced by its packed form; the first exception stops it |
| Connection.OwnCall | src/RedisConnection.php:759-800 | `client()` returns the native object, `serialized()`/`compressed()` read their option, `pack([])` returns `[]` and `pack` of anything else packs each value; `release()` returns null; `shouldTransform()` returns the connection itself, raising `TypeError` for a non-boolean; `getShouldTransform()` returns the flag |
| Connection.EffectOf | src/RedisConnection.php:327-342 | only `release` returns the connection to its pool, and it clears the flag; `shouldTransform($on)` sets the flag to `$on` (true by default); every other call leaves the flag alone |
| Connection.Invoke | src/Redis.php:36 | the connection's own public methods (the scan family, `release`, `shouldTransform`, `getShouldTransform`, `client`, `serialized`, `compressed`, `pack`) run directly, with no retry; a scan with too few arguments raises `ArgumentCountError`; every other name goes through `__call` |
| Connection.UntransformedForwardsVerbatim | src/RedisConnection.php:312-319 | with the flag off every name that is not a subscribe name or one of the connection's own methods reaches the native client verbatim |
| Connection.OwnMethodsStayLocal | src/RedisConnection.php:327-350 | the connection's own methods never send their own name to the native client: `release`, `shouldTransform`, `getShouldTransform` and `client` make no native call, the others only `getOption` or `_pack` |
| Connection.PinningCommandsForwarded | src/RedisConnection.php:307-319 | `multi`, `pipeline` and `select`, in any letter case, are forwarded to the native client as they are, and none of them is `release` |
| Connection.ReleaseResetsTransform | src/RedisConnection.php:327-342 | a released connection is untransformed |
| Connection.BatchStartIsForwarded | src/RedisConnection.php:319 | `multi` and `pipeline` are forwarded to the native client as they are |
| Dispatcher.ContextKey | src/Redis.php:127-130 | the slot key is `redis.connection.` followed by the pool name |
| Dispatcher.ContextKeyInjective | src/Redis.php:127-130 | different pools have different slots |
| Dispatcher.GetConnection | src/Redis.php:108-122 | the pinned connection, else one pool lease; a non-RedisConnection raises; the returned connection has transformation on |
| Dispatcher.ReleaseConn | src/Redis.php:72 | one release of that connection, transformation off |
| Dispatcher.EventFor | src/Redis.php:40-51 | the event carries the pool name and either the result or the exception, the other null |
| Dispatcher.SelectedDatabase | src/Redis.php:59-61 | a database only for `select` with a truthy first argument, its `(int)` value |
| Dispatcher.OtherCasingIsNotPinned | src/Redis.php:96-103 | the pinning test is case-sensitive: `MULTI` and the like go to the native client as given, on a connection released at once, with no pin and no deferred release |
| Dispatcher.Dispose | src/Redis.php:39-73 | one event when the connection has a dispatcher; a pin beforehand leaves everything else alone and yields null; multi/pipeline/select pin the connection, defer its release, record the selected database and yield null; anything else releases now and passes the outcome through |
| Dispatcher.ApplyEffect | src/RedisConnection.php:327-342 | a `release()` call returns the connection to its pool; `shouldTransform` sets its flag; nothing else about the dispatcher's state changes |
| Dispatcher.Call | src/Redis.php:26-76 | invalid connection raises before any command; a pin is reused without lease or release and the call yields null; otherwise one lease, then for multi/pipeline/select a pin and one deferred release whatever the outcome, or the dispatcher's release (after `release()`'s own, for that name) and the outcome passed through; one event when a dispatcher is set; only the own slot changes |
| Dispatcher.ReleaseThroughDispatcher | src/Redis.php:36-72 | `release` called through the dispatcher returns the connection to the pool twice: once in the connection's `release()`, once in the dispatcher's `finally` |
| Dispatcher.ReleaseContextConnection | src/Redis.php:81-90 | the slot is emptied and what it held released once; an empty slot is a no-op |
| Dispatcher.ReleaseContextIdempotent | src/Redis.php:81-90 | running it twice is running it once: the second run finds the slot empty |
| Dispatcher.RunDeferred | src/Redis.php:64-66 | all deferred releases run and the list is empty; exactly the slots they name are emptied, and what each held goes back to the pool after the earlier releases |
| Dispatcher.RunDeferredOnEmptySlots | src/Redis.php:86-89 | deferred releases of empty slots release nothing |
| Dispatcher.PinReleasedAtEnd | src/Redis.php:58-69 | a pin made by a command is released exactly once when the coroutine ends |
| MultiExec.RunBatch | src/Traits/MultiExec.php:59 | on a handle: the callback's calls, then `exec` once, its reply returned; a callback exception skips `exec`; on null the first method call raises |
| MultiExec.ExecuteMultiExec | src/Traits/MultiExec.php:45-65 | without a callback exactly the dispatcher's step; a failing start ends it; otherwise the batch outcome, with the pin released only when there was none before |
| MultiExec.Pipeline | src/Traits/MultiExec.php:25-28 | the first native call is `pipeline()` with no arguments |
| MultiExec.Transaction | src/Traits/MultiExec.php:35-38 | the first native call is `multi()` with no arguments |
| MultiExec.StartCommandYieldsNull | src/Redis.php:53-69 | the start command yields null (or the invalid-connection error), never the handle |
| MultiExec.BatchWithCallbackRaises | src/Traits/MultiExec.php:56-59 | as written, a batch with a callback always ends in an exception |
| MultiExec.CoordinatorReleasesOwnPin | src/Traits/MultiExec.php:55-64 | with no pin before, one release and an empty slot, whatever the callback or `exec` did |
| MultiExec.CoordinatorKeepsExistingPin | src/Traits/MultiExec.php:55-63 | an existing pin is neither released nor replaced, and nothing is leased |
| MultiExec.ReleasedOnceOverall | src/Traits/MultiExec.php:60-63 | with the later deferred release, the connection is released exactly once overall |
| Factory.NewProxy | src/RedisProxy.php:11-16 | the proxy's pool name is its argument |
| Factory.NewFactory | src/RedisFactory.php:19-26 | one proxy per configured pool, each bound to its own name |
| Factory.Get | src/RedisFactory.php:28-36 | the stored proxy for a configured name, `InvalidRedisProxyException('Invalid Redis proxy.')` otherwise |
| Factory.GetFromConfig | src/RedisFactory.php:19-36 | a configured name yields the proxy for that name, any other raises |
| Factory.DistinctPoolsDistinctProxies | src/RedisFactory.php:28-36 | different names yield different proxies |
| Factory.ProxyOrdinaryCommand | src/RedisProxy.php:15 | a proxy leases from its own pool and releases the connection once, or twice for `release` |
| Factory.ProxyPinsOwnSlot | src/RedisProxy.php:15 | a proxy pins under its own key and leaves the default slot as it was |

## Findings

| source | as written | input that shows it | evidently intended | confidence | as-written member | corrected member |
|---|---|---|---|---|---|---|
| src/RedisConnection.php:553-561 | `getScanOptions` returns `$arguments[0]` whenever `is_array($arguments[0] ?? [])` holds, including when the first argument is missing or null; the declared return type `array` then raises `TypeError` | `scan($cursor)`, `scan($cursor, null)` or `scan($cursor, null, 100)` with transformation on | a missing or null pattern means `'*'`, with the given count or 10, as the `?? '*'` and `?? 10` in the positional branch and at the call sites expect | high (not executed) | ScanFamily.ScanOptionsAsWritten | ScanFamily.ScanOptions |

## Left out

- phpredis itself and the `@method` docblock (src/RedisConnection.php:14-297): native calls are uninterpreted; their replies come from `Native.Client`.
- The base class's retry and its `scan`/`zScan`/`hScan`/`sScan`: the Hyperf connection class is not part of this model, so they are opaque functions of `Native.Client`.
- ScanFamily.Scan: the scan the rest of the model uses runs with the corrected options, so `scan($cursor)` or `scan($cursor, null, ...)` with transformation on scans with `'*'` where the code raises `TypeError` (see Findings); `ScanFamily.ScanAsWritten` is the code as written, and `ScanFamily.ScanAsWrittenAgrees` states exactly where the two differ.
- Connection.Invoke: the public methods of the base Hyperf connection class (for example `getConnection`, `reconnect`, `close`, `check`, `setDatabase`) are not part of this model; called through the dispatcher under those names they are routed as native commands, which the code does not do.
- Connection.UntransformedForwardsVerbatim: for the same reason, it does not exclude the base class's public methods, which in the code never reach the native client.
- Connection.OwnCall: `serialized()` and `compressed()` first test `defined('Redis::OPT_...')`; the constants are taken to be defined, as they are in phpredis builds that have the options.
- The base class's `release()` (for example a database reset before the connection returns to the pool) behind `parent::release()`: the model records only that the connection went back.
- `$connection->getConnection()` (src/Redis.php:35): the base class's reconnect; the model uses the connection as it was obtained.
- Timing (`microtime`, `round`) in the dispatcher: floating point; events carry no duration.
- Floating-point values: `Php.Val` has no float constructor, so a float (a `zadd` score such as `1.0`, a float passed to `select` or `flushdb`, a float key reaching `array_combine`) cannot be expressed; the routines that forward scores do so without inspecting them.
- Php.Val: `VInt` is an unbounded integer where PHP's integers are 64-bit, so integer overflow to float in the native replies or arguments is not modelled; only `(int)` of a string saturates (`Php.IntCast`).
- Concurrency: `Context`, `defer` and the pool are sequential state, as described above; a blocking pool `get` is the `fromPool` parameter.
- `Context::has` is taken to mean that the slot holds a non-null connection, consistent with src/Redis.php:86-87; the Context class is not part of this model.
- `connection()` (src/Redis.php:135-140), src/RedisPool.php and src/ConfigProvider.php: container wiring.
- The branch of `executeMultiExec` for a class other than the dispatcher (src/Traits/MultiExec.php:51-53).
- Keys of arrays the caller passes in: such an array's entries carry `Php.Key` values as PHP has already filed them; only the keys the routines build themselves go through `Php.StringKey`.
- Return-type checks of the routines (for example `callSet(): bool` receiving a non-boolean reply): native replies are assumed well typed. The one exception is `getScanOptions`, listed under Findings.
- Named arguments reaching a routine through argument spreading.
- Exceptions raised by the event dispatcher itself.
- `(int)` of strings in exponent notation (`"1e3"`): `Php.IntCast` reads the leading decimal digits only.
- The rate limiter exercised by tests/DurationLimiterTest.php: its class is not part of this model.
- Blocking subscriptions: phpredis's `subscribe` blocks until unsubscribed; the model takes its outcome from `Native.Client` as a single reply.

=== FILE: connection.dfy ===
/** The connection object (`RedisConnection`): its transformation flag and
    the routing of a method call on it, either to one of its own public
    methods (the scan family, `release`, `shouldTransform`, `client`, ...)
    or through `__call` to the subscribe path, a translation routine, or the
    native client verbatim. */
module Connection {
  import opened Php
  import opened Params
  import opened Native
  import opened Handlers
  import opened ScanFamily
  import opened Subscribe

  /** The mutable part of a connection object. */
  datatype ConnState = ConnState(transform: bool, database: Option<int>)

  /** A new connection: transformation is off. */
  const Fresh := ConnState(false, None)

  /** `shouldTransform($on)`. */
  function ShouldTransform(cs: ConnState, on: bool): (r: ConnState)
    ensures r.transform == on
    ensures r.database == cs.database
  {
    cs.(transform := on)
  }

  /** `release()`: the flag goes back to false before the connection
      returns to its pool (the pool side is recorded by the caller). */
  function Release(cs: ConnState): (r: ConnState)
    ensures !r.transform
    ensures r.database == cs.database
  {
    cs.(transform := false)
  }

  /** `setDatabase($db)`. */
  function SetDatabase(cs: ConnState, db: int): (r: ConnState)
    ensures r.database == Some(db)
    ensures r.transform == cs.transform
  {
    cs.(database := Some(db))
  }

  /** `callSubscribe(string $name, array $arguments)` reached through the
      routine table, with its own parameters bound from the call's arguments. */
  const SubscribeRoutineSig := Sig([Required(TString), Required(TArray)], false)

  /** The body of `__call`'s `try`: subscribe path first (exact names),
      then a routine when transforming, else the native method verbatim. */
  function Attempt(c: Client, transform: bool, name: string, args: seq<Val>): (r: Run)
    ensures name == "subscribe" || name == "psubscribe" ==> r == CallSubscribe(c, name, ListOf(args))
    ensures name != "subscribe" && name != "psubscribe" && transform && Lower(name) in RoutineNames ==>
      r == RunRoutine(c, Lower(name), args)
    ensures name != "subscribe" && name != "psubscribe" && (!transform || (Lower(name) !in RoutineNames && Lower(name) != "subscribe")) ==>
      r == Run(c.reply(NativeCall(name, args)), [NativeCall(name, args)])
    ensures name != "subscribe" && transform && Lower(name) == "subscribe" ==>
      if |args| >= 2 && args[0].VStr? && args[1].VArr? then r == CallSubscribe(c, args[0].s, args[1].entries)
      else if |args| >= 1 && !args[0].VStr? then r == Run(Throw(TypeError), [])
      else if |args| >= 2 then r == Run(Throw(TypeError), [])
      else r == Run(Throw(ArgumentCountError), [])
  {
    if name == "subscribe" || name == "psubscribe" then CallSubscribe(c, name, ListOf(args))
    else if transform && Lower(name) in RoutineNames then RunRoutine(c, Lower(name), args)
    else if transform && Lower(name) == "subscribe" then
      match Bind(SubscribeRoutineSig, args)
      case Fail(e) => Run(Throw(e), [])
      case Ok(b) => CallSubscribe(c, b.fixed[0].s, b.fixed[1].entries)
    else
      var call := NativeCall(name, args);
      Run(c.reply(call), [call])
  }

  /** `__call`: anything the attempt throws goes to the base class's retry. */
  function MagicCall(c: Client, transform: bool, name: string, args: seq<Val>): (r: Run)
    ensures r.trace == Attempt(c, transform, name, args).trace
    ensures Attempt(c, transform, name, args).out.Return? ==> r.out == Attempt(c, transform, name, args).out
    ensures Attempt(c, transform, name, args).out.Throw? ==>
      r.out == c.retry(name, args, Attempt(c, transform, name, args).out.e)
  {
    var attempt := Attempt(c, transform, name, args);
    if attempt.out.Throw? then Run(c.retry(name, args, attempt.out.e), attempt.trace) else attempt
  }

  /** The connection's own scan methods, matched case-insensitively like
      every PHP method name. */
  function ScanKind(lname: string): Option<Kind> {
    match lname
    case "scan" => Some(KeyScan)
    case "zscan" => Some(SortedSetScan)
    case "hscan" => Some(HashScan)
    case "sscan" => Some(SetScan)
    case _ => None
  }

  /** The position of the by-reference cursor: `scan(&$cursor, ...)` and
      `zscan($key, &$cursor, ...)` and its siblings. */
  function CursorArity(kind: Kind): (r: nat)
    ensures r == 1 <==> kind == KeyScan
    ensures r == 1 || r == 2
  {
    if kind == KeyScan then 1 else 2
  }

  /** The connection's other public methods. */
  datatype OwnMethod = ReleaseSelf | SetTransform | GetTransform | ClientHandle | Serialized | Compressed | Pack

  function OwnMethodOf(lname: string): Option<OwnMethod> {
    match lname
    case "release" => Some(ReleaseSelf)
    case "shouldtransform" => Some(SetTransform)
    case "getshouldtransform" => Some(GetTransform)
    case "client" => Some(ClientHandle)
    case "serialized" => Some(Serialized)
    case "compressed" => Some(Compressed)
    case "pack" => Some(Pack)
    case _ => None
  }

  const ShouldTransformSig := Sig([Optional(TBool, VBool(true))], false)
  const PackSig := Sig([Required(TArray)], false)

  /** phpredis's `Redis::OPT_SERIALIZER` and `Redis::OPT_COMPRESSION`; the
      "none" value of both is 0. */
  const OptSerializer := VInt(1)
  const OptCompression := VInt(7)
  const OptionNone := VInt(0)

  /** `getOption($opt) !== Redis::..._NONE`. */
  function OptionEnabled(c: Client, opt: Val): (r: Run)
    ensures r.trace == [NativeCall("getOption", [opt])]
    ensures c.reply(NativeCall("getOption", [opt])).Throw? ==> r.out == c.reply(NativeCall("getOption", [opt]))
    ensures c.reply(NativeCall("getOption", [opt])).Return? ==>
      r.out == Return(VBool(c.reply(NativeCall("getOption", [opt])).v != OptionNone))
  {
    var call := NativeCall("getOption", [opt]);
    var o := c.reply(call);
    Run(if o.Throw? then o else Return(VBool(o.v != OptionNone)), [call])
  }

  function PackCall(v: Val): NativeCall {
    NativeCall("_pack", [v])
  }

  /** `array_map($this->connection->_pack(...), $values)`: one `_pack` per
      value in order, keys kept; the first exception ends it. */
  function PackEach(c: Client, es: seq<Entry>): (r: Run)
    ensures |r.trace| <= |es|
    ensures forall i :: 0 <= i < |r.trace| ==> r.trace[i] == PackCall(es[i].val)
    ensures r.out.Return? <==> forall i :: 0 <= i < |es| ==> c.reply(PackCall(es[i].val)).Return?
    ensures r.out.Return? ==> |r.trace| == |es| && r.out.v.VArr? && |r.out.v.entries| == |es|
    ensures r.out.Return? ==> forall i :: 0 <= i < |es| ==> r.out.v.entries[i] == Entry(es[i].key, c.reply(PackCall(es[i].val)).v)
    ensures r.out.Throw? ==> |r.trace| > 0 && r.out == c.reply(r.trace[|r.trace| - 1])
    decreases |es|
  {
    if |es| == 0 then Run(Return(VArr([])), [])
    else
      var call := PackCall(es[0].val);
      var o := c.reply(call);
      if o.Throw? then Run(o, [call])
      else
        var rest := PackEach(c, es[1..]);
        assert forall i :: 1 <= i < |es| ==> es[i] == es[1..][i - 1];
        if rest.out.Throw? then Run(rest.out, [call] + rest.trace)
        else Run(Return(VArr([Entry(es[0].key, o.v)] + rest.out.v.entries)), [call] + rest.trace)
  }

  /** One of the connection's own methods, reached directly (no `__call`,
      so no retry). `self` is the connection object's identity. */
  function OwnCall(c: Client, self: nat, transform: bool, m: OwnMethod, args: seq<Val>): (r: Run)
    // `release()` and `shouldTransform()` return without a native call.
    ensures m == ReleaseSelf ==> r == Run(Return(VNull), [])
    ensures m == SetTransform ==>
      (|args| == 0 || args[0].VBool? ==> r == Run(Return(VObj(self, None)), [])) &&
      (|args| > 0 && !args[0].VBool? ==> r == Run(Throw(TypeError), []))
    ensures m == GetTransform ==> r == Run(Return(VBool(transform)), [])
    ensures m == ClientHandle ==> r == Run(Return(c.handle), [])
    ensures m == Serialized ==> r == OptionEnabled(c, OptSerializer)
    ensures m == Compressed ==> r == OptionEnabled(c, OptCompression)
    // `pack`: an empty array comes back as it is, anything else is packed value by value.
    ensures m == Pack && (|args| == 0 || !args[0].VArr?) ==> r.out.Throw? && r.trace == []
    ensures m == Pack && |args| > 0 && args[0] == VArr([]) ==> r == Run(Return(VArr([])), [])
    ensures m == Pack && |args| > 0 && args[0].VArr? && args[0] != VArr([]) ==> r == PackEach(c, args[0].entries)
  {
    match m
    case ReleaseSelf => Run(Return(VNull), [])
    case SetTransform =>
      (match Bind(ShouldTransformSig, args)
       case Fail(e) => Run(Throw(e), [])
       case Ok(_) => Run(Return(VObj(self, None)), []))
    case GetTransform => Run(Return(VBool(transform)), [])
    case ClientHandle => Run(Return(c.handle), [])
    case Serialized => OptionEnabled(c, OptSerializer)
    case Compressed => OptionEnabled(c, OptCompression)
    case Pack =>
      match Bind(PackSig, args)
      case Fail(e) => Run(Throw(e), [])
      case Ok(b) =>
        if |b.fixed[0].entries| == 0 then Run(Return(b.fixed[0]), []) else PackEach(c, b.fixed[0].entries)
  }

  /** What a call does to the connection object itself: its transformation
      flag afterwards, and whether it went back to its pool. */
  datatype Effect = Effect(transform: bool, released: bool)

  predicate ReleasesItself(name: string) {
    OwnMethodOf(Lower(name)) == Some(ReleaseSelf)
  }

  function EffectOf(transform: bool, name: string, args: seq<Val>): (r: Effect)
    // Only `release` returns the connection to the pool, and it resets the flag.
    ensures r.released <==> ReleasesItself(name)
    ensures r.released ==> !r.transform
    // `shouldTransform($on)` sets the flag to `$on`, true by default.
    ensures OwnMethodOf(Lower(name)) == Some(SetTransform) && |args| == 0 ==> r.transform
    ensures OwnMethodOf(Lower(name)) == Some(SetTransform) && |args| > 0 && args[0].VBool? ==> r.transform == args[0].b
    // Every other call leaves the flag as it was.
    ensures r.transform != transform ==>
      ReleasesItself(name) || (OwnMethodOf(Lower(name)) == Some(SetTransform) && (|args| == 0 || args[0].VBool?))
  {
    match OwnMethodOf(Lower(name))
    case Some(ReleaseSelf) => Effect(false, true)
    case Some(SetTransform) =>
      (match Bind(ShouldTransformSig, args)
       case Fail(_) => Effect(transform, false)
       case Ok(b) => Effect(b.fixed[0].b, false))
    case _ => Effect(transform, false)
  }

  /** `$connection->{$name}(...$args)`: a scan method or another public
      method of the connection when the name is one (no retry: neither
      passes through `__call`), otherwise `__call`. The by-reference cursor
      is local to the call, as the arguments are spread. */
  function Invoke(c: Client, self: nat, transform: bool, name: string, args: seq<Val>): (r: Run)
    ensures ScanKind(Lower(name)).None? && OwnMethodOf(Lower(name)).None? ==> r == MagicCall(c, transform, name, args)
    ensures OwnMethodOf(Lower(name)).Some? ==> r == OwnCall(c, self, transform, OwnMethodOf(Lower(name)).value, args)
    ensures ScanKind(Lower(name)).Some? && |args| < CursorArity(ScanKind(Lower(name)).value) ==>
      r == Run(Throw(ArgumentCountError), [])
    ensures ScanKind(Lower(name)).Some? && |args| >= CursorArity(ScanKind(Lower(name)).value) ==>
      var kind := ScanKind(Lower(name)).value;
      var n := CursorArity(kind);
      var scan := Scan(c, transform, kind, args[..n - 1], args[n - 1], args[n..]);
      r == Run(scan.out, scan.trace)
  {
    match ScanKind(Lower(name))
    case None =>
      (match OwnMethodOf(Lower(name))
       case Some(m) => OwnCall(c, self, transform, m, args)
       case None => MagicCall(c, transform, name, args))
    case Some(kind) =>
      var n := CursorArity(kind);
      if |args| < n then Run(Throw(ArgumentCountError), [])
      else
        var s := Scan(c, transform, kind, args[..n - 1], args[n - 1], args[n..]);
        Run(s.out, s.trace)
  }

  /** With transformation off every name other than the two subscribe
      names and the connection's own methods reaches the native client
      verbatim, with the base class's retry as the only other possible outcome. */
  lemma UntransformedForwardsVerbatim(c: Client, self: nat, name: string, args: seq<Val>)
    requires name != "subscribe" && name != "psubscribe"
    requires ScanKind(Lower(name)).None? && OwnMethodOf(Lower(name)).None?
    ensures Invoke(c, self, false, name, args).trace == [NativeCall(name, args)]
    ensures c.reply(NativeCall(name, args)).Return? ==> Invoke(c, self, false, name, args).out == c.reply(NativeCall(name, args))
    ensures c.reply(NativeCall(name, args)).Throw? ==>
      Invoke(c, self, false, name, args).out == c.retry(name, args, c.reply(NativeCall(name, args)).e)
  {
  }

  /** The connection's own methods never reach the native client under
      their own name and are never retried: `release`, `shouldTransform`,
      `getShouldTransform` and `client` make no native call at all, and the
      others only `getOption` or `_pack`. */
  lemma {:induction false} OwnMethodsStayLocal(c: Client, self: nat, transform: bool, name: string, args: seq<Val>)
    requires OwnMethodOf(Lower(name)).Some?
    ensures var r := Invoke(c, self, transform, name, args);
      forall i :: 0 <= i < |r.trace| ==> r.trace[i].name == "getOption" || r.trace[i].name == "_pack"
    ensures OwnMethodOf(Lower(name)).value in {ReleaseSelf, SetTransform, GetTransform, ClientHandle} ==>
      Invoke(c, self, transform, name, args).trace == []
  {
    var m := OwnMethodOf(Lower(name)).value;
    var r := OwnCall(c, self, transform, m, args);
    if m == Pack && |args| > 0 && args[0].VArr? && args[0] != VArr([]) {
      assert r == PackEach(c, args[0].entries);
      assert forall i :: 0 <= i < |r.trace| ==> r.trace[i] == PackCall(args[0].entries[i].val);
    }
  }

  /** A connection released to the pool and handed out again starts untransformed. */
  lemma ReleaseResetsTransform(cs: ConnState, on: bool)
    ensures !Release(ShouldTransform(cs, on)).transform
    ensures ShouldTransform(Release(cs), on).transform == on
  {
  }

  /** The names the dispatcher pins on are commands, not methods of the connection. */
  lemma PinningNamesAreCommands(name: string)
    requires name == "multi" || name == "pipeline" || name == "select"
    ensures Lower(name) == name
    ensures ScanKind(Lower(name)).None? && OwnMethodOf(Lower(name)).None?
  {
    LowerEach(name, name);
  }

  /** `multi`, `pipeline` and `select`, in any letter case, have no routine:
      they reach the native client as they are. */
  lemma PinningCommandsForwarded(c: Client, self: nat, name: string, args: seq<Val>)
    requires Lower(name) in {"multi", "pipeline", "select"}
    ensures Invoke(c, self, true, name, args).trace == [NativeCall(name, args)]
    ensures !ReleasesItself(name)
  {
    assert Lower(name) !in RoutineNames && Lower(name) != "subscribe";
    assert Attempt(c, true, name, args).trace == [NativeCall(name, args)];
  }

  /** The batch start commands reach the native client as they are. */
  lemma BatchStartIsForwarded(c: Client, self: nat, name: string)
    requires name == "multi" || name == "pipeline"
    ensures Invoke(c, self, true, name, []).trace == [NativeCall(name, [])]
  {
    PinningNamesAreCommands(name);
    PinningCommandsForwarded(c, self, name, []);
  }
}

=== FILE: dispatcher.dfy ===
/** The dispatcher (`Redis`): every command either reuses the connection
    pinned in the coroutine context under the pool's key or leases one from
    the pool; afterwards it reports one `CommandExecuted` event and then
    leaves the pin alone, pins the connection for `multi`/`pipeline`/`select`,
    or releases it.

    The coroutine machinery is explicit state: the context is a map (a key
    set to null is absent), the pool is a log of leases, `release()` is a log
    of released connection ids, and `defer` is a list of pending actions run
    last-in first-out when the coroutine ends. */
module Dispatcher {
  import opened Php
  import opened Native
  import Connection

  /** A connection object as the dispatcher sees it: its identity, whether it
      is a `RedisConnection` at all, and whether it carries an event dispatcher. */
  datatype Conn = Conn(id: nat, isRedisConnection: bool, hasEventDispatcher: bool)

  /** A dispatcher (or proxy) instance: only its pool name matters. */
  datatype Redis = Redis(poolName: string)

  const DefaultPool := "default"

  /** A `defer`red `releaseContextConnection` of the dispatcher for `pool`. */
  datatype Deferred = ReleaseContext(pool: string)

  /** `CommandExecuted`: the duration is not modelled. */
  datatype Event = CommandExecuted(name: string, args: seq<Val>, conn: nat, pool: string, result: Val, error: Option<Err>)

  datatype State = State(
    context: map<string, Conn>,
    objs: map<nat, Connection.ConnState>,
    leases: seq<string>,
    releases: seq<nat>,
    deferred: seq<Deferred>,
    events: seq<Event>)

  /** The outcome of one dispatcher step, the state after it and the native calls made. */
  datatype Step = Step(state: State, out: Outcome, trace: seq<NativeCall>)

  const InvalidRedisConnection := Err("InvalidRedisConnectionException", "The connection is not a valid RedisConnection.")

  const ContextPrefix := "redis.connection."

  /** `getContextKey`. */
  function ContextKey(pool: string): (r: string)
    ensures |r| == |ContextPrefix| + |pool|
    ensures r[..|ContextPrefix|] == ContextPrefix && r[|ContextPrefix|..] == pool
  {
    ContextPrefix + pool
  }

  /** Different pools never share a context slot. */
  lemma ContextKeyInjective(p: string, q: string)
    ensures ContextKey(p) == ContextKey(q) <==> p == q
  {
    if ContextKey(p) == ContextKey(q) {
      assert p == ContextKey(p)[|ContextPrefix|..];
    }
  }

  /** `shouldUseSameConnection`: a strict, case-sensitive `in_array`. */
  predicate ShouldUseSameConnection(name: string) {
    name in {"multi", "pipeline", "select"}
  }

  /** A connection's state; one never touched is a new object. */
  function ObjOf(s: State, id: nat): Connection.ConnState {
    if id in s.objs then s.objs[id] else Connection.Fresh
  }

  /** The pinning test is case-sensitive: `MULTI`, `Pipeline` and the like
      run on a leased connection that goes straight back to the pool, the
      native client still receiving the command under the name as given. */
  lemma OtherCasingIsNotPinned(s: State, c: Client, redis: Redis, fromPool: Conn, name: string, args: seq<Val>)
    requires Lower(name) in {"multi", "pipeline", "select"} && !ShouldUseSameConnection(name)
    requires ContextKey(redis.poolName) !in s.context && fromPool.isRedisConnection
    ensures var r := Call(s, c, redis, fromPool, name, args);
      && r.trace == [NativeCall(name, args)]
      && r.state.releases == s.releases + [fromPool.id]
      && r.state.context == s.context && r.state.deferred == s.deferred
  {
    Connection.PinningCommandsForwarded(c, fromPool.id, name, args);
    assert SelfRelease(name, fromPool.id) == [];
  }

  /** `getConnection`: the pinned connection if there is one, otherwise a
      pool lease (`fromPool`); a non-`RedisConnection` raises, otherwise its
      transformation is switched on. */
  function GetConnection(s: State, pool: string, fromPool: Conn): (r: (State, Res<Conn>))
    ensures ContextKey(pool) in s.context ==> r.0.leases == s.leases
    ensures ContextKey(pool) !in s.context ==> r.0.leases == s.leases + [pool]
    ensures r.1.Fail? <==> !(if ContextKey(pool) in s.context then s.context[ContextKey(pool)] else fromPool).isRedisConnection
    ensures r.1.Fail? ==> r.1.err == InvalidRedisConnection && r.0.objs == s.objs
    ensures r.1.Ok? ==>
      && r.1.value == (if ContextKey(pool) in s.context then s.context[ContextKey(pool)] else fromPool)
      && r.1.value.id in r.0.objs && r.0.objs[r.1.value.id].transform
      && r.0.objs[r.1.value.id].database == ObjOf(s, r.1.value.id).database
      && (forall id :: id in s.objs && id != r.1.value.id ==> id in r.0.objs && r.0.objs[id] == s.objs[id])
    ensures r.0.context == s.context && r.0.releases == s.releases
    ensures r.0.deferred == s.deferred && r.0.events == s.events
  {
    var key := ContextKey(pool);
    var (s1, conn) := if key in s.context then (s, s.context[key]) else (s.(leases := s.leases + [pool]), fromPool);
    if !conn.isRedisConnection then (s1, Fail(InvalidRedisConnection))
    else (s1.(objs := s1.objs[conn.id := Connection.ShouldTransform(ObjOf(s1, conn.id), true)]), Ok(conn))
  }

  /** `$connection->release()`: back to the pool, transformation off. */
  function ReleaseConn(s: State, conn: Conn): (r: State)
    ensures r.releases == s.releases + [conn.id]
    ensures conn.id in r.objs && !r.objs[conn.id].transform
    ensures r.context == s.context && r.leases == s.leases && r.deferred == s.deferred && r.events == s.events
  {
    s.(releases := s.releases + [conn.id], objs := s.objs[conn.id := Connection.Release(ObjOf(s, conn.id))])
  }

  /** The event reported for a call: the result or the exception, the other null. */
  function EventFor(name: string, args: seq<Val>, conn: Conn, pool: string, out: Outcome): (r: Event)
    ensures out.Return? ==> r.result == out.v && r.error.None?
    ensures out.Throw? ==> r.result == VNull && r.error == Some(out.e)
    ensures r.pool == pool && r.conn == conn.id && r.name == name && r.args == args
  {
    match out
    case Return(v) => CommandExecuted(name, args, conn.id, pool, v, None)
    case Throw(e) => CommandExecuted(name, args, conn.id, pool, VNull, Some(e))
  }

  /** `select`'s database: the first argument when it is truthy (a missing
      argument reads as null). */
  function SelectedDatabase(name: string, args: seq<Val>): (r: Option<int>)
    ensures r.Some? <==> name == "select" && |args| > 0 && Truthy(args[0])
    ensures r.Some? ==> r.value == IntCast(args[0])
  {
    if name == "select" && |args| > 0 && Truthy(args[0]) then Some(IntCast(args[0])) else None
  }

  /** The `finally` of `__call` once the command has run with outcome `out`
      on `conn`: the event, then the connection's disposition. The bare
      `return;` on the first two branches makes the call yield null whatever
      the command returned or raised. */
  function Dispose(s: State, redis: Redis, hadPin: bool, conn: Conn, name: string, args: seq<Val>, out: Outcome): (r: (State, Outcome))
    ensures conn.hasEventDispatcher ==> r.0.events == s.events + [EventFor(name, args, conn, redis.poolName, out)]
    ensures !conn.hasEventDispatcher ==> r.0.events == s.events
    ensures r.0.leases == s.leases
    // Pinned beforehand: nothing else happens and the call yields null.
    ensures hadPin ==>
      && r.1 == Return(VNull) && r.0.context == s.context && r.0.releases == s.releases
      && r.0.deferred == s.deferred && r.0.objs == s.objs
    // multi/pipeline/select: pinned under the pool's key, release deferred, null.
    ensures !hadPin && ShouldUseSameConnection(name) ==>
      && r.1 == Return(VNull) && r.0.releases == s.releases
      && r.0.context == s.context[ContextKey(redis.poolName) := conn]
      && r.0.deferred == s.deferred + [ReleaseContext(redis.poolName)]
      && ObjOf(r.0, conn.id).transform == ObjOf(s, conn.id).transform
      && ObjOf(r.0, conn.id).database == (if SelectedDatabase(name, args).Some? then SelectedDatabase(name, args) else ObjOf(s, conn.id).database)
    // Anything else: released now, outcome passed through.
    ensures !hadPin && !ShouldUseSameConnection(name) ==>
      && r.1 == out && r.0.releases == s.releases + [conn.id]
      && r.0.context == s.context && r.0.deferred == s.deferred
      && !ObjOf(r.0, conn.id).transform
  {
    var event := EventFor(name, args, conn, redis.poolName, out);
    var s1 := if conn.hasEventDispatcher then s.(events := s.events + [event]) else s;
    if hadPin then (s1, Return(VNull))
    else if ShouldUseSameConnection(name) then
      var db := SelectedDatabase(name, args);
      var s2 := if db.Some? then s1.(objs := s1.objs[conn.id := Connection.SetDatabase(ObjOf(s1, conn.id), db.value)]) else s1;
      (s2.(context := s2.context[ContextKey(redis.poolName) := conn],
           deferred := s2.deferred + [ReleaseContext(redis.poolName)]),
       Return(VNull))
    else (ReleaseConn(s1, conn), out)
  }

  /** The release a call of the connection's own `release()` makes, before the dispatcher's. */
  function SelfRelease(name: string, id: nat): (r: seq<nat>)
    ensures Connection.ReleasesItself(name) ==> r == [id]
    ensures !Connection.ReleasesItself(name) ==> r == []
  {
    if Connection.ReleasesItself(name) then [id] else []
  }

  /** The call's own effect on the connection object: `shouldTransform`
      sets its flag, `release` hands it back to the pool. */
  function ApplyEffect(s: State, conn: Conn, e: Connection.Effect): (r: State)
    requires e.released ==> !e.transform
    ensures e.released ==> r.releases == s.releases + [conn.id]
    ensures !e.released ==> r.releases == s.releases
    ensures ObjOf(r, conn.id).transform == e.transform
    ensures ObjOf(r, conn.id).database == ObjOf(s, conn.id).database
    ensures r.context == s.context && r.leases == s.leases && r.deferred == s.deferred && r.events == s.events
  {
    if e.released then ReleaseConn(s, conn)
    else s.(objs := s.objs[conn.id := Connection.ShouldTransform(ObjOf(s, conn.id), e.transform)])
  }

  /** `Redis::__call($name, $arguments)` with `fromPool` the connection the
      pool would hand out and `c` the native client behind the connection. */
  function Call(s: State, c: Client, redis: Redis, fromPool: Conn, name: string, args: seq<Val>): (r: Step)
    // An invalid connection fails before any command: no event, no release.
    ensures var key := ContextKey(redis.poolName);
      !(if key in s.context then s.context[key] else fromPool).isRedisConnection ==>
      && r.out == Throw(InvalidRedisConnection) && r.trace == []
      && r.state.events == s.events && r.state.releases == s.releases
      && r.state.context == s.context && r.state.deferred == s.deferred
    // A pinned connection is reused: no lease, slot unchanged, no release
    // but the one `release()` itself makes; the call yields null.
    ensures var key := ContextKey(redis.poolName);
      key in s.context && s.context[key].isRedisConnection ==>
      && r.out == Return(VNull)
      && r.state.leases == s.leases && r.state.releases == s.releases + SelfRelease(name, s.context[key].id)
      && r.state.context == s.context && r.state.deferred == s.deferred
    // No pin: one lease from the dispatcher's own pool.
    ensures ContextKey(redis.poolName) !in s.context ==> r.state.leases == s.leases + [redis.poolName]
    // No pin, ordinary command: released by the dispatcher (after `release()`'s
    // own release, for that name), slot still empty, outcome passed through.
    ensures ContextKey(redis.poolName) !in s.context && fromPool.isRedisConnection && !ShouldUseSameConnection(name) ==>
      && r.out == Connection.Invoke(c, fromPool.id, true, name, args).out
      && r.state.releases == s.releases + SelfRelease(name, fromPool.id) + [fromPool.id]
      && r.state.context == s.context && r.state.deferred == s.deferred
      && !ObjOf(r.state, fromPool.id).transform
    // No pin, multi/pipeline/select: pinned, one deferred release, no immediate release, whatever the outcome.
    ensures ContextKey(redis.poolName) !in s.context && fromPool.isRedisConnection && ShouldUseSameConnection(name) ==>
      && r.out == Return(VNull)
      && r.state.releases == s.releases
      && r.state.context == s.context[ContextKey(redis.poolName) := fromPool]
      && r.state.deferred == s.deferred + [ReleaseContext(redis.poolName)]
      && ObjOf(r.state, fromPool.id).transform
      && (SelectedDatabase(name, args).Some? ==> ObjOf(r.state, fromPool.id).database == SelectedDatabase(name, args))
      && (SelectedDatabase(name, args).None? ==> ObjOf(r.state, fromPool.id).database == ObjOf(s, fromPool.id).database)
    // A valid connection runs the command with transformation on.
    ensures var key := ContextKey(redis.poolName);
      var conn := if key in s.context then s.context[key] else fromPool;
      conn.isRedisConnection ==> r.trace == Connection.Invoke(c, conn.id, true, name, args).trace
    // One event when the connection has a dispatcher, none otherwise.
    ensures var key := ContextKey(redis.poolName);
      var conn := if key in s.context then s.context[key] else fromPool;
      conn.isRedisConnection ==>
      && (conn.hasEventDispatcher ==> r.state.events == s.events + [EventFor(name, args, conn, redis.poolName, Connection.Invoke(c, conn.id, true, name, args).out)])
      && (!conn.hasEventDispatcher ==> r.state.events == s.events)
    // Only the dispatcher's own slot can change.
    ensures r.state.context - {ContextKey(redis.poolName)} == s.context - {ContextKey(redis.poolName)}
  {
    var key := ContextKey(redis.poolName);
    var hadPin := key in s.context;
    var (s1, got) := GetConnection(s, redis.poolName, fromPool);
    match got
    case Fail(e) => Step(s1, Throw(e), [])
    case Ok(conn) =>
      var transform := ObjOf(s1, conn.id).transform;
      var run := Connection.Invoke(c, conn.id, transform, name, args);
      var s2 := ApplyEffect(s1, conn, Connection.EffectOf(transform, name, args));
      if ShouldUseSameConnection(name) then
        Connection.PinningNamesAreCommands(name);
        var (s3, out) := Dispose(s2, redis, hadPin, conn, name, args, run.out);
        Step(s3, out, run.trace)
      else
        var (s3, out) := Dispose(s2, redis, hadPin, conn, name, args, run.out);
        Step(s3, out, run.trace)
  }

  /** `release` called through the dispatcher runs the connection's own
      `release()` and then the dispatcher's: the connection goes back to the
      pool twice. */
  lemma ReleaseThroughDispatcher(s: State, c: Client, redis: Redis, fromPool: Conn, name: string, args: seq<Val>)
    requires Connection.ReleasesItself(name)
    requires ContextKey(redis.poolName) !in s.context && fromPool.isRedisConnection
    ensures var r := Call(s, c, redis, fromPool, name, args);
      && r.out == Return(VNull) && r.trace == []
      && r.state.releases == s.releases + [fromPool.id, fromPool.id]
  {
    assert !ShouldUseSameConnection(name) by {
      if ShouldUseSameConnection(name) { Connection.PinningNamesAreCommands(name); }
    }
  }

  /** `releaseContextConnection`: empties the slot and releases what it held. */
  function ReleaseContextConnection(s: State, pool: string): (r: State)
    ensures ContextKey(pool) in s.context ==>
      r.releases == s.releases + [s.context[ContextKey(pool)].id]
    ensures ContextKey(pool) !in s.context ==> r == s
    ensures ContextKey(pool) !in r.context
    ensures r.context == s.context - {ContextKey(pool)}
    ensures r.leases == s.leases && r.deferred == s.deferred && r.events == s.events
  {
    var key := ContextKey(pool);
    if key in s.context then ReleaseConn(s.(context := s.context - {key}), s.context[key]) else s
  }

  /** Running it again finds the slot empty: never a second release. */
  lemma ReleaseContextIdempotent(s: State, pool: string)
    ensures ReleaseContextConnection(ReleaseContextConnection(s, pool), pool) == ReleaseContextConnection(s, pool)
  {
  }

  /** The context keys a list of deferred releases empties. */
  function DeferredKeys(ds: seq<Deferred>): set<string> {
    set d | d in ds :: ContextKey(d.pool)
  }

  /** The end of the coroutine: deferred actions run last-in first-out. */
  function RunDeferred(s: State): (r: State)
    ensures r.deferred == []
    ensures r.leases == s.leases && r.events == s.events
    // Every slot a deferred action names is emptied, and nothing else is.
    ensures r.context == s.context - DeferredKeys(s.deferred)
    // Whatever such a slot held went back to the pool, after the earlier releases.
    ensures s.releases <= r.releases
    ensures |r.releases| <= |s.releases| + |s.deferred|
    ensures forall d :: d in s.deferred && ContextKey(d.pool) in s.context ==>
      s.context[ContextKey(d.pool)].id in r.releases[|s.releases|..]
    decreases |s.deferred|
  {
    if |s.deferred| == 0 then s
    else
      var last := s.deferred[|s.deferred| - 1];
      var s1 := s.(deferred := s.deferred[..|s.deferred| - 1]);
      var s2 := ReleaseContextConnection(s1, last.pool);
      var r := RunDeferred(s2);
      DeferredStep(s, s2, r);
      r
  }

  /** One step of `RunDeferred`: what holds after the rest of the list has
      run from `s2` holds from `s`. */
  lemma DeferredStep(s: State, s2: State, r: State)
    requires |s.deferred| > 0
    requires s2 == ReleaseContextConnection(s.(deferred := s.deferred[..|s.deferred| - 1]), s.deferred[|s.deferred| - 1].pool)
    requires r.context == s2.context - DeferredKeys(s2.deferred)
    requires s2.releases <= r.releases && |r.releases| <= |s2.releases| + |s2.deferred|
    requires forall d :: d in s2.deferred && ContextKey(d.pool) in s2.context ==>
      s2.context[ContextKey(d.pool)].id in r.releases[|s2.releases|..]
    ensures r.context == s.context - DeferredKeys(s.deferred)
    ensures s.releases <= r.releases && |r.releases| <= |s.releases| + |s.deferred|
    ensures forall d :: d in s.deferred && ContextKey(d.pool) in s.context ==>
      s.context[ContextKey(d.pool)].id in r.releases[|s.releases|..]
  {
    var last := s.deferred[|s.deferred| - 1];
    assert s.deferred == s2.deferred + [last];
    assert DeferredKeys(s.deferred) == DeferredKeys(s2.deferred) + {ContextKey(last.pool)};
    ReleasedStays(s, s2, r);
  }

  /** The step lemma behind `RunDeferred`'s release clause. */
  lemma ReleasedStays(s: State, s2: State, r: State)
    requires |s.deferred| > 0
    requires s2 == ReleaseContextConnection(s.(deferred := s.deferred[..|s.deferred| - 1]), s.deferred[|s.deferred| - 1].pool)
    requires s2.releases <= r.releases
    requires forall d :: d in s2.deferred && ContextKey(d.pool) in s2.context ==>
      s2.context[ContextKey(d.pool)].id in r.releases[|s2.releases|..]
    ensures forall d :: d in s.deferred && ContextKey(d.pool) in s.context ==>
      s.context[ContextKey(d.pool)].id in r.releases[|s.releases|..]
  {
    var last := s.deferred[|s.deferred| - 1];
    var lastKey := ContextKey(last.pool);
    assert s.deferred == s2.deferred + [last];
    forall d | d in s.deferred && ContextKey(d.pool) in s.context
      ensures s.context[ContextKey(d.pool)].id in r.releases[|s.releases|..]
    {
      var key := ContextKey(d.pool);
      var id := s.context[key].id;
      if key == lastKey {
        assert s2.releases == s.releases + [id];
        assert r.releases[|s.releases|] == id;
      } else {
        assert d in s2.deferred;
        assert key in s2.context && s2.context[key] == s.context[key];
        assert r.releases[|s2.releases|..] == r.releases[|s.releases|..][|s2.releases| - |s.releases|..];
      }
    }
  }

  /** Deferred releases of slots that are already empty release nothing. */
  lemma {:induction false} RunDeferredOnEmptySlots(s: State)
    requires forall i :: 0 <= i < |s.deferred| ==> ContextKey(s.deferred[i].pool) !in s.context
    ensures RunDeferred(s) == s.(deferred := [])
    decreases |s.deferred|
  {
    if |s.deferred| > 0 {
      var last := s.deferred[|s.deferred| - 1];
      var s1 := s.(deferred := s.deferred[..|s.deferred| - 1]);
      assert ReleaseContextConnection(s1, last.pool) == s1;
      RunDeferredOnEmptySlots(s1);
    }
  }

  /** A pin made by `multi`/`pipeline`/`select` is released exactly once, by
      the deferred action, when the coroutine ends; the slot is then empty. */
  lemma PinReleasedAtEnd(s: State, c: Client, redis: Redis, fromPool: Conn, name: string, args: seq<Val>)
    requires s.deferred == [] && ContextKey(redis.poolName) !in s.context
    requires fromPool.isRedisConnection && ShouldUseSameConnection(name)
    ensures var end := RunDeferred(Call(s, c, redis, fromPool, name, args).state);
      && end.releases == s.releases + [fromPool.id]
      && end.context == s.context
      && end.leases == s.leases + [redis.poolName]
  {
    var st := Call(s, c, redis, fromPool, name, args).state;
    assert st.deferred == [ReleaseContext(redis.poolName)];
    var after := ReleaseContextConnection(st.(deferred := []), redis.poolName);
    assert RunDeferred(st) == RunDeferred(after);
    assert after.context == s.context;
  }
}

=== FILE: factory.dfy ===
/** The pool-name plumbing: `RedisFactory` builds one proxy per configured
    pool and looks them up by name; a `RedisProxy` is a dispatcher whose pool
    name is fixed at construction. */
module Factory {
  import opened Php
  import opened Native
  import opened Dispatcher

  /** `new RedisProxy($factory, $pool)`: the pool name is the argument. */
  function NewProxy(pool: string): (r: Redis)
    ensures r.poolName == pool
  {
    Redis(pool)
  }

  /** The factory's proxies, keyed by pool name. */
  datatype RedisFactory = RedisFactory(proxies: map<string, Redis>)

  /** The constructor, over the keys of the `redis` configuration. */
  function NewFactory(config: map<string, Val>): (r: RedisFactory)
    ensures r.proxies.Keys == config.Keys
    ensures forall pool :: pool in r.proxies ==> r.proxies[pool].poolName == pool
  {
    RedisFactory(map pool | pool in config :: NewProxy(pool))
  }

  const InvalidRedisProxy := Err("InvalidRedisProxyException", "Invalid Redis proxy.")

  /** `get($poolName)`. */
  function Get(f: RedisFactory, pool: string): (r: Res<Redis>)
    ensures pool in f.proxies <==> r.Ok?
    ensures r.Ok? ==> r.value == f.proxies[pool]
    ensures r.Fail? ==> r.err == InvalidRedisProxy
  {
    if pool in f.proxies then Ok(f.proxies[pool]) else Fail(InvalidRedisProxy)
  }

  /** A factory built from a configuration hands out, for each configured
      name, the proxy bound to that name, and raises for any other. */
  lemma {:induction false} GetFromConfig(config: map<string, Val>, pool: string)
    ensures pool in config ==> Get(NewFactory(config), pool) == Ok(NewProxy(pool))
    ensures pool !in config ==> Get(NewFactory(config), pool) == Fail(InvalidRedisProxy)
  {
    var f := NewFactory(config);
    if pool in config {
      assert pool in f.proxies;
    }
  }

  /** Different configured names yield different proxies. */
  lemma DistinctPoolsDistinctProxies(config: map<string, Val>, p: string, q: string)
    requires p in config && q in config && p != q
    ensures Get(NewFactory(config), p) != Get(NewFactory(config), q)
  {
    GetFromConfig(config, p);
    GetFromConfig(config, q);
  }

  /** An ordinary command through a proxy with nothing pinned leases from
      the proxy's own pool, releases the connection (once, for anything but
      `release` itself), and leaves every slot as it was. */
  lemma ProxyOrdinaryCommand(s: State, c: Client, pool: string, fromPool: Conn, name: string, args: seq<Val>)
    requires ContextKey(pool) !in s.context && fromPool.isRedisConnection && !ShouldUseSameConnection(name)
    ensures var r := Call(s, c, NewProxy(pool), fromPool, name, args);
      && r.state.leases == s.leases + [pool]
      && r.state.releases == s.releases + SelfRelease(name, fromPool.id) + [fromPool.id]
      && r.state.context == s.context
  {
  }

  /** A proxy pins under its own key and no other: in particular the default
      pool's slot is untouched by a proxy for another pool. */
  lemma {:induction false} ProxyPinsOwnSlot(s: State, c: Client, pool: string, fromPool: Conn, name: string, args: seq<Val>)
    requires ContextKey(pool) !in s.context && fromPool.isRedisConnection && ShouldUseSameConnection(name)
    requires pool != DefaultPool
    ensures var r := Call(s, c, NewProxy(pool), fromPool, name, args);
      && ContextKey(pool) in r.state.context && r.state.context[ContextKey(pool)] == fromPool
      && (ContextKey(DefaultPool) in r.state.context <==> ContextKey(DefaultPool) in s.context)
      && (ContextKey(DefaultPool) in s.context ==> r.state.context[ContextKey(DefaultPool)] == s.context[ContextKey(DefaultPool)])
  {
    ContextKeyInjective(pool, DefaultPool);
  }
}

=== FILE: handler_facts.dfy ===
/** Properties of the translation routines that relate several calls or
    several input shapes: the flat and array forms of `hmset`, `hmget` and
    `zadd`, and the sentinel handling of `get`/`mget` end to end. */
module HandlerFacts {
  import opened Php
  import opened Native
  import opened Handlers

  // ---------------------------------------------------------------------
  // get / mget

  /** `get` on the native client: one `get` call with the key, `false`
      becomes null and any other reply comes back unchanged. */
  lemma GetEndToEnd(c: Client, key: string)
    ensures var r := RunRoutine(c, "get", [VStr(key)]);
      && r.trace == [NativeCall("get", [VStr(key)])]
      && (c.reply(NativeCall("get", [VStr(key)])) == Return(VBool(false)) ==> r.out == Return(VNull))
      && (forall v :: c.reply(NativeCall("get", [VStr(key)])) == Return(v) && v != VBool(false) ==> r.out == Return(v))
  {
  }

  /** `mget`: the reply's entries keep their keys and order, each `false`
      becomes null and nothing else changes. */
  lemma MgetEndToEnd(c: Client, keys: seq<Entry>, reply: seq<Entry>)
    requires c.reply(NativeCall("mGet", [VArr(keys)])) == Return(VArr(reply))
    ensures var r := RunRoutine(c, "mget", [VArr(keys)]);
      && r.trace == [NativeCall("mGet", [VArr(keys)])]
      && r.out.Return? && r.out.v.VArr? && |r.out.v.entries| == |reply|
      && forall i :: 0 <= i < |reply| ==>
           r.out.v.entries[i].key == reply[i].key
           && (reply[i].val == VBool(false) ==> r.out.v.entries[i].val == VNull)
           && (reply[i].val != VBool(false) ==> r.out.v.entries[i].val == reply[i].val)
  {
  }

  /** `setnx`/`hsetnx` report the native boolean as 1 or 0. */
  lemma SetnxReportsInt(c: Client, key: string, value: string, field: string, b: bool)
    requires c.reply(NativeCall("setNx", [VStr(key), VStr(value)])) == Return(VBool(b))
    requires c.reply(NativeCall("hSetNx", [VStr(key), VStr(field), VStr(value)])) == Return(VBool(b))
    ensures RunRoutine(c, "setnx", [VStr(key), VStr(value)]).out == Return(VInt(if b then 1 else 0))
    ensures RunRoutine(c, "hsetnx", [VStr(key), VStr(field), VStr(value)]).out == Return(VInt(if b then 1 else 0))
  {
  }

  /** `lrem($key, $count, $value)` is native `lRem($key, $value, $count)`. */
  lemma LremSwaps(c: Client, key: string, count: int, value: Val)
    ensures RunRoutine(c, "lrem", [VStr(key), VInt(count), value]).trace == [NativeCall("lRem", [VStr(key), value, VInt(count)])]
  {
  }

  /** `blpop`/`brpop`: an empty native reply (empty array, false or null) is
      null, anything else comes back unchanged. */
  lemma BlockingPopEmptyIsNull(c: Client, args: seq<Val>, v: Val)
    requires c.reply(NativeCall("blPop", args)) == Return(v) && c.reply(NativeCall("brPop", args)) == Return(v)
    ensures Falsy(v) ==> RunRoutine(c, "blpop", args).out == Return(VNull) && RunRoutine(c, "brpop", args).out == Return(VNull)
    ensures Truthy(v) ==> RunRoutine(c, "blpop", args).out == Return(v) && RunRoutine(c, "brpop", args).out == Return(v)
  {
  }

  // ---------------------------------------------------------------------
  // hmget / hmset

  /** `hmget($key, $f1, $f2, ...)` and `hmget($key, [$f1, $f2, ...])` make
      the same native call, for any number of fields other than one. */
  lemma HmgetShapesAgree(key: string, fields: seq<Val>)
    requires |fields| != 1
    ensures CallHmget([VStr(key)] + fields) == CallHmget([VStr(key), VArr(ListOf(fields))])
  {
    assert ([VStr(key)] + fields)[1..] == fields;
  }

  /** The flat argument list `f1, v1, f2, v2, ...` of field, value pairs. */
  function FlatPairs(ps: seq<(string, Val)>): (r: seq<Val>)
    ensures |r| == 2 * |ps|
    ensures |r| % 2 == 0
  {
    if |ps| == 0 then [] else [VStr(ps[0].0), ps[0].1] + FlatPairs(ps[1..])
  }

  /** The map `[f1 => v1, f2 => v2, ...]` of the same pairs, each field
      filed under the key a PHP array literal gives it. */
  function MapOf(ps: seq<(string, Val)>): (r: seq<Entry>)
    ensures |r| == |ps|
  {
    seq(|ps|, i requires 0 <= i < |ps| => Entry(StringKey(ps[i].0), ps[i].1))
  }

  predicate DistinctFields(ps: seq<(string, Val)>) {
    forall i, j :: 0 <= i < j < |ps| ==> ps[i].0 != ps[j].0
  }

  /** One step of `array_combine` on a fresh field appends its pair. */
  lemma CombineStep(acc: seq<Entry>, ps: seq<(string, Val)>)
    requires |ps| > 0 && Lookup(acc, StringKey(ps[0].0)).None?
    ensures CombineFrom(acc, FlatPairs(ps)) == CombineFrom(acc + [Entry(StringKey(ps[0].0), ps[0].1)], FlatPairs(ps[1..]))
  {
    var d := FlatPairs(ps);
    assert d == [VStr(ps[0].0), ps[0].1] + FlatPairs(ps[1..]);
    assert d[0] == VStr(ps[0].0) && d[1] == ps[0].1 && d[2..] == FlatPairs(ps[1..]);
    assert CombineKey(d[0]) == Ok(StringKey(ps[0].0));
  }

  /** After the first pair is combined, the remaining fields are still
      distinct and still new. */
  lemma TailStaysFresh(acc: seq<Entry>, ps: seq<(string, Val)>)
    requires |ps| > 0 && DistinctFields(ps)
    requires forall i :: 0 <= i < |ps| ==> Lookup(acc, StringKey(ps[i].0)).None?
    ensures DistinctFields(ps[1..])
    ensures forall i :: 0 <= i < |ps[1..]| ==> Lookup(acc + [Entry(StringKey(ps[0].0), ps[0].1)], StringKey(ps[1..][i].0)).None?
  {
    var acc' := acc + [Entry(StringKey(ps[0].0), ps[0].1)];
    assert Assign(acc, StringKey(ps[0].0), ps[0].1) == acc';
    forall i | 0 <= i < |ps[1..]|
      ensures Lookup(acc', StringKey(ps[1..][i].0)).None?
    {
      assert ps[1..][i] == ps[i + 1];
      assert ps[0].0 != ps[i + 1].0;
      StringKeyInjective(ps[0].0, ps[i + 1].0);
    }
  }

  /** The map of a non-empty list is its first pair's entry before the map of the rest. */
  lemma MapOfHead(ps: seq<(string, Val)>)
    requires |ps| > 0
    ensures MapOf(ps) == [Entry(StringKey(ps[0].0), ps[0].1)] + MapOf(ps[1..])
  {
    var tail := MapOf(ps[1..]);
    forall i | 1 <= i < |ps|
      ensures MapOf(ps)[i] == tail[i - 1]
    {
      var p := ps[i];
      assert ps[1..][i - 1] == p;
      assert tail[i - 1] == Entry(StringKey(p.0), p.1);
    }
  }

  lemma MapOfCons(acc: seq<Entry>, ps: seq<(string, Val)>)
    requires |ps| > 0
    ensures acc + [Entry(StringKey(ps[0].0), ps[0].1)] + MapOf(ps[1..]) == acc + MapOf(ps)
  {
    var e := Entry(StringKey(ps[0].0), ps[0].1);
    MapOfHead(ps);
    assert acc + [e] + MapOf(ps[1..]) == acc + ([e] + MapOf(ps[1..]));
  }

  /** Combining pairs whose fields are distinct and new to `acc` appends them in order. */
  lemma {:induction false} CombineFromFresh(acc: seq<Entry>, ps: seq<(string, Val)>)
    requires DistinctFields(ps)
    requires forall i :: 0 <= i < |ps| ==> Lookup(acc, StringKey(ps[i].0)).None?
    ensures CombineFrom(acc, FlatPairs(ps)) == Ok(acc + MapOf(ps))
    decreases |ps|
  {
    if |ps| == 0 {
      assert acc + MapOf(ps) == acc;
    } else {
      var e := Entry(StringKey(ps[0].0), ps[0].1);
      CombineStep(acc, ps);
      TailStaysFresh(acc, ps);
      CombineFromFresh(acc + [e], ps[1..]);
      MapOfCons(acc, ps);
    }
  }

  /** `hmset($key, $f1, $v1, $f2, $v2, ...)` with distinct field names
      sends the map `[$f1 => $v1, $f2 => $v2, ...]`, as the array form does. */
  lemma {:induction false} HmsetFlatListIsMap(key: string, ps: seq<(string, Val)>)
    requires DistinctFields(ps)
    ensures CallHmset([VStr(key)] + FlatPairs(ps)) == Ok(Direct(NativeCall("hMSet", [VStr(key), VArr(MapOf(ps))]), AsIs))
    ensures CallHmset([VStr(key)] + FlatPairs(ps)) == CallHmset([VStr(key), VArr(MapOf(ps))])
  {
    var args := [VStr(key)] + FlatPairs(ps);
    assert args[1..] == FlatPairs(ps);
    CombineFromFresh([], ps);
    assert [] + MapOf(ps) == MapOf(ps);
    assert Combine(args[1..]) == Ok(MapOf(ps));
  }

  /** An odd flat list cannot be split into pairs: `array_combine` raises. */
  lemma HmsetOddListRaises(key: string, d: seq<Val>)
    requires |d| % 2 == 1 && |d| != 1
    ensures CallHmset([VStr(key)] + d) == Fail(ValueError)
  {
    assert ([VStr(key)] + d)[1..] == d;
  }

  // ---------------------------------------------------------------------
  // eval / evalsha

  /** `evalsha($script, $n, ...$args)` loads the script, then runs the digest
      the load returned with the arguments as a list and the key count, and
      answers with that call's reply; a failed load ends it with no second call. */
  lemma EvalshaEndToEnd(c: Client, script: string, numkeys: int, argv: seq<Val>)
    ensures var load := NativeCall("script", [VStr("load"), VStr(script)]);
      var r := RunRoutine(c, "evalsha", [VStr(script), VInt(numkeys)] + argv);
      && (c.reply(load).Throw? ==> r == Run(c.reply(load), [load]))
      && (forall digest :: c.reply(load) == Return(digest) ==>
            var ev := NativeCall("evalSha", [digest, VArr(ListOf(argv)), VInt(numkeys)]);
            r.trace == [load, ev] && r.out == c.reply(ev))
  {
    var args := [VStr(script), VInt(numkeys)] + argv;
    assert args[2..] == argv;
  }

  /** `eval` and `evalsha` hand the native client the same argument list
      and key count; only the script travels differently. */
  lemma EvalAndEvalshaAgree(c: Client, script: string, numkeys: int, argv: seq<Val>)
    ensures var args := [VStr(script), VInt(numkeys)] + argv;
      && CallEval(args).Ok? && CallEvalsha(args).Ok?
      && CallEval(args).value.call.args[1] == CallEvalsha(args).value.argv
      && CallEval(args).value.call.args[2] == CallEvalsha(args).value.numkeys
  {
    var args := [VStr(script), VInt(numkeys)] + argv;
    assert args[2..] == argv;
  }

  // ---------------------------------------------------------------------
  // zadd

  lemma {:induction false} WordsAppend(a: seq<Val>, b: seq<Val>)
    ensures OptionWords(a + b) == OptionWords(a) + OptionWords(b)
    ensures OtherWords(a + b) == OtherWords(a) + OtherWords(b)
    decreases |a|
  {
    if |a| > 0 {
      assert (a + b)[1..] == a[1..] + b;
      WordsAppend(a[1..], b);
    } else {
      assert a + b == b;
    }
  }

  lemma {:induction false} AllOptionWords(a: seq<Val>)
    requires forall i :: 0 <= i < |a| ==> IsZaddOption(a[i])
    ensures OptionWords(a) == a && OtherWords(a) == []
    decreases |a|
  {
    if |a| > 0 {
      AllOptionWords(a[1..]);
      assert a == [a[0]] + a[1..];
    }
  }

  lemma {:induction false} NoOptionWords(a: seq<Val>)
    requires forall i :: 0 <= i < |a| ==> !IsZaddOption(a[i])
    ensures OptionWords(a) == [] && OtherWords(a) == a
    decreases |a|
  {
    if |a| > 0 {
      NoOptionWords(a[1..]);
      assert a == [a[0]] + a[1..];
    }
  }

  /** The split itself: leading option words out, everything else kept. */
  lemma {:induction false} SplitLeadingOptions(opts: seq<Val>, items: seq<Val>)
    requires |opts| <= 3 && forall i :: 0 <= i < |opts| ==> IsZaddOption(opts[i])
    requires forall i :: 0 <= i < |items| ==> !IsZaddOption(items[i])
    ensures SplitOptions(opts + items) == (opts, items)
  {
    var d := opts + items;
    var k := Min(3, |d|);
    var m := k - |opts|;
    assert 0 <= m <= |items|;
    assert d[..k] == opts + items[..m];
    assert d[k..] == items[m..];
    WordsAppend(opts, items[..m]);
    AllOptionWords(opts);
    NoOptionWords(items[..m]);
    assert OptionWords(d[..k]) == opts;
    assert OtherWords(d[..k]) + d[k..] == items[..m] + items[m..] == items;
  }

  /** Leading option words (at most three) go to the options list, and the
      score, member items follow in their order. */
  lemma {:induction false} ZaddLeadingOptions(key: string, opts: seq<Val>, items: seq<Val>)
    requires |opts| <= 3 && forall i :: 0 <= i < |opts| ==> IsZaddOption(opts[i])
    requires forall i :: 0 <= i < |items| ==> !IsZaddOption(items[i])
    requires |items| > 0 && !items[|items| - 1].VArr?
    ensures CallZadd([VStr(key)] + opts + items) ==
            Ok(Direct(NativeCall("zAdd", [VStr(key), VArr(ListOf(opts))] + items), AsIs))
  {
    var d := opts + items;
    assert ([VStr(key)] + opts + items)[1..] == d;
    assert d[|d| - 1] == items[|items| - 1];
    assert ExpandTrailing(d) == d;
    SplitLeadingOptions(opts, items);
  }

  /** A trailing `[member => score, ...]` array is the same call as the
      flat `score, member, ...` items, with or without options before it. */
  lemma {:induction false} ZaddMapEqualsFlat(key: string, pre: seq<Val>, members: seq<Entry>)
    requires |members| > 0
    ensures CallZadd([VStr(key)] + pre + [VArr(members)]) == CallZadd([VStr(key)] + pre + Flatten(members))
  {
    var flat := Flatten(members);
    assert ([VStr(key)] + pre + [VArr(members)])[1..] == pre + [VArr(members)];
    assert ([VStr(key)] + pre + flat)[1..] == pre + flat;
    assert (pre + [VArr(members)])[..|pre|] == pre;
    var last := flat[|flat| - 1];
    assert last == KeyVal(members[|members| - 1].key);
    assert ExpandTrailing(pre + [VArr(members)]) == pre + flat;
    assert ExpandTrailing(pre + flat) == pre + flat;
  }

  /** An option word past the third position is an ordinary item. */
  lemma LateOptionWordStays(a: Val, b: Val, c: Val, w: Val)
    requires !IsZaddOption(a) && !IsZaddOption(b) && !IsZaddOption(c) && IsZaddOption(w)
    ensures SplitOptions([a, b, c, w]) == ([], [a, b, c, w])
  {
    var d := [a, b, c, w];
    assert d[..Min(3, |d|)] == [a, b, c];
    assert d[Min(3, |d|)..] == [w];
    NoOptionWords([a, b, c]);
    assert OtherWords([a, b, c]) + [w] == d;
  }
}

=== FILE: handlers.dfy ===
/** The Laravel-style translation routines of the connection (`call<Name>`):
    each binds its arguments, reshapes them into the native call, and
    post-processes the native reply. */
module Handlers {
  import opened Php
  import opened Params
  import opened Native

  /** What a routine does to the native reply. */
  datatype Post =
    | AsIs
    | FalseToNull       // `$r !== false ? $r : null`
    | EachFalseToNull   // the same, element-wise, keys kept
    | CastToInt         // `(int) $r`
    | ValuesOnly        // `array_values($r)`
    | EmptyToNull       // `empty($r) ? null : $r`

  /** A routine's native work: one call and a post-processing of its reply,
      or the script-load-then-evaluate pair of `evalsha`. */
  datatype Plan =
    | Direct(call: NativeCall, post: Post)
    | LoadThenEvalSha(script: Val, argv: Val, numkeys: Val)

  /** Maps the "missing key" sentinel `false` to null. */
  function NullIfFalse(v: Val): (r: Val)
    ensures r != VBool(false)
    ensures v != VBool(false) ==> r == v
    ensures v == VBool(false) ==> r == VNull
  {
    if v == VBool(false) then VNull else v
  }

  /** `array_map` of `NullIfFalse` over an array: same keys, same order. */
  function NullFalses(es: seq<Entry>): (r: seq<Entry>)
    ensures |r| == |es|
    ensures forall i :: 0 <= i < |es| ==> r[i] == Entry(es[i].key, NullIfFalse(es[i].val))
  {
    if |es| == 0 then []
    else [Entry(es[0].key, NullIfFalse(es[0].val))] + NullFalses(es[1..])
  }

  function ApplyPost(p: Post, v: Val): (r: Outcome)
    ensures p == AsIs ==> r == Return(v)
    ensures p == FalseToNull ==> r == Return(NullIfFalse(v))
    ensures p == CastToInt ==> r == Return(VInt(IntCast(v)))
    ensures p == EachFalseToNull ==>
      (v.VArr? ==> r == Return(VArr(NullFalses(v.entries)))) && (!v.VArr? ==> r == Throw(TypeError))
    ensures p == ValuesOnly ==>
      (v.VArr? ==> r == Return(VArr(ListOf(ValuesOf(v.entries))))) && (!v.VArr? ==> r == Throw(TypeError))
    ensures p == EmptyToNull ==> r == Return(if Falsy(v) then VNull else v)
  {
    match p
    case AsIs => Return(v)
    case FalseToNull => Return(NullIfFalse(v))
    case EachFalseToNull => if v.VArr? then Return(VArr(NullFalses(v.entries))) else Throw(TypeError)
    case CastToInt => Return(VInt(IntCast(v)))
    case ValuesOnly => if v.VArr? then Return(VArr(ListOf(ValuesOf(v.entries)))) else Throw(TypeError)
    case EmptyToNull => Return(if Falsy(v) then VNull else v)
  }

  /** Runs a plan against the native client. */
  function RunPlan(c: Client, p: Plan): (r: Run)
    ensures p.Direct? ==> r.trace == [p.call]
    ensures p.Direct? && c.reply(p.call).Throw? ==> r.out == c.reply(p.call)
    ensures p.Direct? && c.reply(p.call).Return? ==> r.out == ApplyPost(p.post, c.reply(p.call).v)
    // evalsha: the script is loaded first and its digest is what `evalSha` runs.
    ensures p.LoadThenEvalSha? ==>
      var load := NativeCall("script", [VStr("load"), p.script]);
      && (c.reply(load).Throw? ==> r == Run(c.reply(load), [load]))
      && (c.reply(load).Return? ==>
            var ev := NativeCall("evalSha", [c.reply(load).v, p.argv, p.numkeys]);
            r == Run(c.reply(ev), [load, ev]))
  {
    match p
    case Direct(call, post) =>
      var o := c.reply(call);
      Run(if o.Return? then ApplyPost(post, o.v) else o, [call])
    case LoadThenEvalSha(script, argv, numkeys) =>
      var load := NativeCall("script", [VStr("load"), script]);
      var sha := c.reply(load);
      if sha.Throw? then Run(sha, [load])
      else
        var ev := NativeCall("evalSha", [sha.v, argv, numkeys]);
        Run(c.reply(ev), [load, ev])
  }

  // ---------------------------------------------------------------------
  // Signatures of the routines, as declared.

  const GetSig := Sig([Required(TString)], false)
  const MgetSig := Sig([Required(TArray)], false)
  const SetSig := Sig([Required(TString), Required(TMixed), Optional(TNullableString, VNull),
                       Optional(TNullableInt, VNull), Optional(TNullableString, VNull)], false)
  const SetnxSig := Sig([Required(TString), Required(TString)], false)
  const KeyAndRestSig := Sig([Required(TString)], true)
  const HsetnxSig := Sig([Required(TString), Required(TString), Required(TString)], false)
  const LremSig := Sig([Required(TString), Required(TInt), Required(TMixed)], false)
  const VariadicSig := Sig([], true)
  const SpopSig := Sig([Required(TString), Optional(TNullableInt, VInt(1))], false)
  const RangeByScoreSig := Sig([Required(TString), Required(TMixed), Required(TMixed), Optional(TArray, VArr([]))], false)
  const StoreSig := Sig([Required(TString), Required(TArray), Optional(TArray, VArr([]))], false)
  const EvalSig := Sig([Required(TString), Required(TInt)], true)
  const ExecuteRawSig := Sig([Required(TArray)], false)

  // ---------------------------------------------------------------------
  // get / mget / set / setnx

  function CallGet(args: seq<Val>): (r: Res<Plan>)
    ensures r.Ok? <==> |args| >= 1 && args[0].VStr?
    ensures r.Ok? ==> r.value == Direct(NativeCall("get", [args[0]]), FalseToNull)
  {
    match Bind(GetSig, args)
    case Fail(e) => Fail(e)
    case Ok(b) => Ok(Direct(NativeCall("get", [b.fixed[0]]), FalseToNull))
  }

  function CallMget(args: seq<Val>): (r: Res<Plan>)
    ensures r.Ok? <==> |args| >= 1 && args[0].VArr?
    ensures r.Ok? ==> r.value == Direct(NativeCall("mGet", [args[0]]), EachFalseToNull)
  {
    match Bind(MgetSig, args)
    case Fail(e) => Fail(e)
    case Ok(b) => Ok(Direct(NativeCall("mGet", [b.fixed[0]]), EachFalseToNull))
  }

  /** The options argument `set` forwards: `[flag, resolution => ttl]` when
      the resolution is truthy, otherwise null. */
  function SetOptions(resolution: Val, ttl: Val, flag: Val): (r: Val)
    requires resolution.VStr? || resolution == VNull
    ensures Falsy(resolution) ==> r == VNull
    ensures Truthy(resolution) ==> r == VArr([Entry(KInt(0), flag), Entry(StringKey(resolution.s), ttl)])
  {
    if Truthy(resolution) then VArr([Entry(KInt(0), flag), Entry(StringKey(resolution.s), ttl)]) else VNull
  }

  /** The `i`-th argument, or `d` when it was not passed. */
  function ArgOr(args: seq<Val>, i: nat, d: Val): (r: Val)
    ensures i < |args| ==> r == args[i]
    ensures i >= |args| ==> r == d
  {
    if i < |args| then args[i] else d
  }

  /** `set($key, $value, $expireResolution, $expireTTL, $flag)`. */
  function CallSet(args: seq<Val>): (r: Res<Plan>)
    ensures r.Ok? <==>
      && |args| >= 2 && args[0].VStr?
      && (|args| > 2 ==> args[2].VStr? || args[2] == VNull)
      && (|args| > 3 ==> args[3].VInt? || args[3] == VNull)
      && (|args| > 4 ==> args[4].VStr? || args[4] == VNull)
    ensures r.Ok? && Falsy(ArgOr(args, 2, VNull)) ==>
      r.value == Direct(NativeCall("set", [args[0], args[1], VNull]), AsIs)
    ensures r.Ok? && Truthy(ArgOr(args, 2, VNull)) ==>
      r.value == Direct(NativeCall("set", [args[0], args[1],
        VArr([Entry(KInt(0), ArgOr(args, 4, VNull)), Entry(StringKey(args[2].s), ArgOr(args, 3, VNull))])]), AsIs)
  {
    match Bind(SetSig, args)
    case Fail(e) => Fail(e)
    case Ok(b) =>
      var f := b.fixed;
      assert f[2] == ArgOr(args, 2, VNull) && f[3] == ArgOr(args, 3, VNull) && f[4] == ArgOr(args, 4, VNull);
      Ok(Direct(NativeCall("set", [f[0], f[1], SetOptions(f[2], f[3], f[4])]), AsIs))
  }

  function CallSetnx(args: seq<Val>): (r: Res<Plan>)
    ensures r.Ok? <==> |args| >= 2 && args[0].VStr? && args[1].VStr?
    ensures r.Ok? ==> r.value == Direct(NativeCall("setNx", [args[0], args[1]]), CastToInt)
  {
    match Bind(SetnxSig, args)
    case Fail(e) => Fail(e)
    case Ok(b) => Ok(Direct(NativeCall("setNx", [b.fixed[0], b.fixed[1]]), CastToInt))
  }

  // ---------------------------------------------------------------------
  // hmget / hmset / hsetnx

  /** A variadic tail of exactly one item stands for that item; otherwise the tail as a list. */
  function SingleOrList(rest: seq<Val>): (r: Val)
    ensures |rest| == 1 ==> r == rest[0]
    ensures |rest| != 1 ==> r == VArr(ListOf(rest))
  {
    if |rest| == 1 then rest[0] else VArr(ListOf(rest))
  }

  function CallHmget(args: seq<Val>): (r: Res<Plan>)
    ensures r.Ok? <==> |args| >= 1 && args[0].VStr?
    ensures r.Ok? ==> r.value == Direct(NativeCall("hMGet", [args[0], SingleOrList(args[1..])]), ValuesOnly)
  {
    match Bind(KeyAndRestSig, args)
    case Fail(e) => Fail(e)
    case Ok(b) => Ok(Direct(NativeCall("hMGet", [b.fixed[0], SingleOrList(b.rest)]), ValuesOnly))
  }

  /** `array_combine` of the even-position items with the odd-position items,
      consuming pairs left to right onto `acc`. */
  function CombineFrom(acc: seq<Entry>, d: seq<Val>): (r: Res<seq<Entry>>)
    requires |d| % 2 == 0
    ensures r.Ok? <==> forall i :: 0 <= i < |d| && i % 2 == 0 ==> CombineKey(d[i]).Ok?
    ensures r.Fail? ==> r.err == EngineError
    decreases |d|
  {
    if |d| == 0 then Ok(acc)
    else
      match CombineKey(d[0])
      case Fail(e) => Fail(e)
      case Ok(k) =>
        var acc' := Assign(acc, k, d[1]);
        EvenTail(d);
        var r := CombineFrom(acc', d[2..]);
        EvenPositionsShift(d);
        r
  }

  /** Dropping a pair from an even-length list leaves an even length. */
  lemma EvenTail(d: seq<Val>)
    requires |d| % 2 == 0 && |d| >= 2
    ensures |d[2..]| % 2 == 0
  {
    assert |d[2..]| == |d| - 2;
  }

  /** One pair of `array_combine`: the head's key takes the next item. */
  lemma CombineFromStep(acc: seq<Entry>, d: seq<Val>)
    requires |d| % 2 == 0 && |d| > 0 && CombineKey(d[0]).Ok?
    ensures |d[2..]| % 2 == 0
    ensures CombineFrom(acc, d) == CombineFrom(Assign(acc, CombineKey(d[0]).value, d[1]), d[2..])
  {
    EvenTail(d);
  }

  /** Combining keeps every key already there. */
  lemma {:induction false} CombineFromKeepsKeys(acc: seq<Entry>, d: seq<Val>, k: Key)
    requires |d| % 2 == 0 && CombineFrom(acc, d).Ok? && Lookup(acc, k).Some?
    ensures Lookup(CombineFrom(acc, d).value, k).Some?
    decreases |d|
  {
    if |d| > 0 {
      assert CombineKey(d[0]).Ok?;
      var key := CombineKey(d[0]).value;
      var acc' := Assign(acc, key, d[1]);
      CombineFromStep(acc, d);
      assert Lookup(acc', k).Some? by {
        if k != key {
          assert Lookup(acc', k) == Lookup(acc, k);
        }
      }
      EvenTail(d);
      CombineFromKeepsKeys(acc', d[2..], k);
    }
  }

  /** Combining keeps every key already there and files a value under
      every even-position item. */
  lemma {:induction false} CombineFromKeys(acc: seq<Entry>, d: seq<Val>)
    requires |d| % 2 == 0 && CombineFrom(acc, d).Ok?
    ensures forall k :: Lookup(acc, k).Some? ==> Lookup(CombineFrom(acc, d).value, k).Some?
    ensures forall i :: 0 <= i < |d| && i % 2 == 0 ==> Lookup(CombineFrom(acc, d).value, CombineKey(d[i]).value).Some?
    decreases |d|
  {
    forall k | Lookup(acc, k).Some?
      ensures Lookup(CombineFrom(acc, d).value, k).Some?
    {
      CombineFromKeepsKeys(acc, d, k);
    }
    if |d| > 0 {
      assert CombineKey(d[0]).Ok?;
      var k := CombineKey(d[0]).value;
      var acc' := Assign(acc, k, d[1]);
      CombineFromStep(acc, d);
      EvenPositionsShift(d);
      EvenTail(d);
      CombineFromKeys(acc', d[2..]);
      var r := CombineFrom(acc', d[2..]).value;
      forall i | 0 <= i < |d| && i % 2 == 0
        ensures Lookup(r, CombineKey(d[i]).value).Some?
      {
        if i == 0 {
          assert Lookup(acc', k).Some?;
        } else {
          assert d[i] == d[2..][i - 2];
        }
      }
    }
  }

  /** The even positions of `d` are its head and the even positions of `d[2..]`. */
  lemma EvenPositionsShift(d: seq<Val>)
    requires |d| >= 2
    ensures forall i :: 2 <= i < |d| && i % 2 == 0 ==> d[i] == d[2..][i - 2]
    ensures forall j :: 0 <= j < |d[2..]| && j % 2 == 0 ==> d[2..][j] == d[j + 2] && (j + 2) % 2 == 0
  {
  }

  /** `collect($d)->nth(2)->combine(collect($d)->nth(2, 1))`: the halves
      differ in length for an odd count, which `array_combine` rejects; a key
      with no string form raises; otherwise every even-position item is a key. */
  function Combine(d: seq<Val>): (r: Res<seq<Entry>>)
    ensures r == Fail(ValueError) <==> |d| % 2 == 1
    ensures r.Ok? <==> |d| % 2 == 0 && forall i :: 0 <= i < |d| && i % 2 == 0 ==> CombineKey(d[i]).Ok?
    ensures r.Ok? ==> forall i :: 0 <= i < |d| && i % 2 == 0 ==> Lookup(r.value, CombineKey(d[i]).value).Some?
  {
    if |d| % 2 == 1 then Fail(ValueError)
    else
      var r := CombineFrom([], d);
      if r.Ok? then CombineFromKeys([], d); r else r
  }

  function CallHmset(args: seq<Val>): (r: Res<Plan>)
    ensures |args| >= 1 && args[0].VStr? && |args| == 2 ==>
      r == Ok(Direct(NativeCall("hMSet", args), AsIs))
    ensures |args| >= 1 && args[0].VStr? && |args| != 2 && Combine(args[1..]).Ok? ==>
      r == Ok(Direct(NativeCall("hMSet", [args[0], VArr(Combine(args[1..]).value)]), AsIs))
    ensures |args| >= 1 && args[0].VStr? && |args| % 2 == 0 && |args| != 2 ==> r == Fail(ValueError)
    ensures |args| >= 1 && args[0].VStr? && |args| != 2 && Combine(args[1..]).Fail? ==>
      r == Fail(Combine(args[1..]).err)
    ensures r.Ok? ==> |args| >= 1 && args[0].VStr?
  {
    match Bind(KeyAndRestSig, args)
    case Fail(e) => Fail(e)
    case Ok(b) =>
      var dictionary := if |b.rest| == 1 then Ok(b.rest[0]) else
        match Combine(b.rest)
        case Ok(es) => Ok(VArr(es))
        case Fail(e) => Fail(e);
      match dictionary
      case Fail(e) => Fail(e)
      case Ok(dict) =>
        assert |b.rest| == 1 ==> [b.fixed[0], dict] == args;
        Ok(Direct(NativeCall("hMSet", [b.fixed[0], dict]), AsIs))
  }

  function CallHsetnx(args: seq<Val>): (r: Res<Plan>)
    ensures r.Ok? <==> |args| >= 3 && args[0].VStr? && args[1].VStr? && args[2].VStr?
    ensures r.Ok? ==> r.value == Direct(NativeCall("hSetNx", [args[0], args[1], args[2]]), CastToInt)
  {
    match Bind(HsetnxSig, args)
    case Fail(e) => Fail(e)
    case Ok(b) => Ok(Direct(NativeCall("hSetNx", [b.fixed[0], b.fixed[1], b.fixed[2]]), CastToInt))
  }

  // ---------------------------------------------------------------------
  // lrem / blpop / brpop / spop

  function CallLrem(args: seq<Val>): (r: Res<Plan>)
    ensures r.Ok? <==> |args| >= 3 && args[0].VStr? && args[1].VInt?
    ensures r.Ok? ==> r.value == Direct(NativeCall("lRem", [args[0], args[2], args[1]]), AsIs)
  {
    match Bind(LremSig, args)
    case Fail(e) => Fail(e)
    case Ok(b) => Ok(Direct(NativeCall("lRem", [b.fixed[0], b.fixed[2], b.fixed[1]]), AsIs))
  }

  /** `blpop`/`brpop`: every argument goes to the native pop, and an empty
      reply reads as null. */
  function BlockingPop(native: string, args: seq<Val>): (r: Res<Plan>)
    ensures r == Ok(Direct(NativeCall(native, args), EmptyToNull))
  {
    match Bind(VariadicSig, args)
    case Fail(e) => Fail(e)
    case Ok(b) => Ok(Direct(NativeCall(native, b.rest), EmptyToNull))
  }

  /** `callBlpop`: the shared `BlockingPop` routine with its native name. */
  function CallBlpop(args: seq<Val>): (r: Res<Plan>)
    ensures r == Ok(Direct(NativeCall("blPop", args), EmptyToNull))
  {
    BlockingPop("blPop", args)
  }

  /** `callBrpop`: the shared `BlockingPop` routine with its native name. */
  function CallBrpop(args: seq<Val>): (r: Res<Plan>)
    ensures r == Ok(Direct(NativeCall("brPop", args), EmptyToNull))
  {
    BlockingPop("brPop", args)
  }

  function CallSpop(args: seq<Val>): (r: Res<Plan>)
    ensures r.Ok? <==> |args| >= 1 && args[0].VStr? && (|args| >= 2 ==> args[1].VInt? || args[1] == VNull)
    ensures r.Ok? && |args| == 1 ==> r.value == Direct(NativeCall("sPop", [args[0], VInt(1)]), AsIs)
    ensures r.Ok? && |args| >= 2 ==> r.value == Direct(NativeCall("sPop", [args[0], args[1]]), AsIs)
  {
    match Bind(SpopSig, args)
    case Fail(e) => Fail(e)
    case Ok(b) => Ok(Direct(NativeCall("sPop", [b.fixed[0], b.fixed[1]]), AsIs))
  }

  // ---------------------------------------------------------------------
  // zadd

  const ZaddOptionWords: set<string> := {"nx", "xx", "ch", "incr", "gt", "lt", "NX", "XX", "CH", "INCR", "GT", "LT"}

  /** Strict `in_array` against the option words. */
  predicate IsZaddOption(v: Val) {
    v.VStr? && v.s in ZaddOptionWords
  }

  /** `foreach ($map as $member => $score)` appending score then member. */
  function Flatten(es: seq<Entry>): (r: seq<Val>)
    ensures |r| == 2 * |es|
    ensures forall i :: 0 <= i < |es| ==> r[2 * i] == es[i].val && r[2 * i + 1] == KeyVal(es[i].key)
  {
    if |es| == 0 then []
    else
      var tail := Flatten(es[1..]);
      assert forall i :: 1 <= i < |es| ==> es[i] == es[1..][i - 1];
      [es[0].val, KeyVal(es[0].key)] + tail
  }

  /** A trailing array argument is replaced by its score, member pairs. */
  function ExpandTrailing(d: seq<Val>): (r: seq<Val>)
    ensures |d| > 0 && d[|d| - 1].VArr? ==> r == d[..|d| - 1] + Flatten(d[|d| - 1].entries)
    ensures |d| == 0 || !d[|d| - 1].VArr? ==> r == d
  {
    if |d| > 0 && d[|d| - 1].VArr? then d[..|d| - 1] + Flatten(d[|d| - 1].entries) else d
  }

  /** The option words of `s`, in order. */
  function OptionWords(s: seq<Val>): (r: seq<Val>)
    ensures |r| <= |s|
    ensures forall i :: 0 <= i < |r| ==> IsZaddOption(r[i])
  {
    if |s| == 0 then []
    else if IsZaddOption(s[0]) then [s[0]] + OptionWords(s[1..])
    else OptionWords(s[1..])
  }

  /** The other items of `s`, in order. */
  function OtherWords(s: seq<Val>): (r: seq<Val>)
    ensures |r| <= |s|
    ensures forall i :: 0 <= i < |r| ==> !IsZaddOption(r[i])
  {
    if |s| == 0 then []
    else if IsZaddOption(s[0]) then OtherWords(s[1..])
    else [s[0]] + OtherWords(s[1..])
  }

  function Min(a: int, b: int): int {
    if a <= b then a else b
  }

  /** The loop over `array_slice($d, 0, 3)`: option words among the first
      three positions move, in order, to the options list; every other
      item keeps its relative order. */
  function SplitOptions(d: seq<Val>): (r: (seq<Val>, seq<Val>))
    ensures |r.0| <= 3
    ensures forall i :: 0 <= i < |r.0| ==> IsZaddOption(r.0[i])
    ensures |r.0| + |r.1| == |d|
    ensures r.0 == OptionWords(d[..Min(3, |d|)])
    ensures r.1 == OtherWords(d[..Min(3, |d|)]) + d[Min(3, |d|)..]
    ensures multiset(r.0) + multiset(r.1) == multiset(d)
  {
    var k := Min(3, |d|);
    var opts := OptionWords(d[..k]);
    var rest := OtherWords(d[..k]) + d[k..];
    SplitCounts(d[..k]);
    assert d == d[..k] + d[k..];
    (opts, rest)
  }

  lemma {:induction false} SplitCounts(s: seq<Val>)
    ensures |OptionWords(s)| + |OtherWords(s)| == |s|
    ensures multiset(OptionWords(s)) + multiset(OtherWords(s)) == multiset(s)
  {
    if |s| > 0 {
      SplitCounts(s[1..]);
      assert s == [s[0]] + s[1..];
    }
  }

  function CallZadd(args: seq<Val>): (r: Res<Plan>)
    ensures r.Ok? <==> |args| >= 1 && args[0].VStr?
    ensures r.Ok? ==>
      var split := SplitOptions(ExpandTrailing(args[1..]));
      r.value == Direct(NativeCall("zAdd", [args[0], VArr(ListOf(split.0))] + split.1), AsIs)
  {
    match Bind(KeyAndRestSig, args)
    case Fail(e) => Fail(e)
    case Ok(b) =>
      var split := SplitOptions(ExpandTrailing(b.rest));
      Ok(Direct(NativeCall("zAdd", [b.fixed[0], VArr(ListOf(split.0))] + split.1), AsIs))
  }

  // ---------------------------------------------------------------------
  // zrangebyscore / zrevrangebyscore / zinterstore / zunionstore

  /** A keyed `limit` option `{offset, count}` becomes the pair `[offset, count]`. */
  function RewriteLimit(options: seq<Entry>): (r: Res<seq<Entry>>)
    ensures Lookup(options, KStr("limit")).None? ==> r == Ok(options)
    ensures Lookup(options, KStr("limit")) == Some(VNull) ==> r == Ok(options)
    ensures forall l :: Lookup(options, KStr("limit")) == Some(l) && l != VNull && !l.VArr? ==> r == Fail(TypeError)
    ensures forall l :: Lookup(options, KStr("limit")) == Some(VArr(l)) && IsList(l) ==> r == Ok(options)
    ensures forall l :: Lookup(options, KStr("limit")) == Some(VArr(l)) && !IsList(l) ==>
      && r.Ok?
      && |r.value| == |options|
      && Lookup(r.value, KStr("limit")) ==
         Some(VArr(ListOf([FieldOr(l, KStr("offset"), VNull), FieldOr(l, KStr("count"), VNull)])))
      && (forall k :: k != KStr("limit") ==> Lookup(r.value, k) == Lookup(options, k))
      && (forall i :: 0 <= i < |options| ==> r.value[i].key == options[i].key)
  {
    match Lookup(options, KStr("limit"))
    case None => Ok(options)
    case Some(l) =>
      if l == VNull then Ok(options)
      else if !l.VArr? then Fail(TypeError)
      else if IsList(l.entries) then Ok(options)
      else
        var pair := ListOf([FieldOr(l.entries, KStr("offset"), VNull), FieldOr(l.entries, KStr("count"), VNull)]);
        Ok(Assign(options, KStr("limit"), VArr(pair)))
  }

  function RangeByScore(native: string, args: seq<Val>): (r: Res<Plan>)
    ensures r.Ok? <==>
      |args| >= 3 && args[0].VStr? && (|args| >= 4 ==> args[3].VArr? && RewriteLimit(args[3].entries).Ok?)
    ensures r.Ok? ==> r.value.Direct? && r.value.call.name == native && r.value.post == AsIs
    ensures r.Ok? ==> |r.value.call.args| == 4 && r.value.call.args[..3] == args[..3]
    ensures r.Ok? && |args| == 3 ==> r.value.call.args[3] == VArr([])
    ensures r.Ok? && |args| >= 4 ==> args[3].VArr? && RewriteLimit(args[3].entries).Ok?
    ensures r.Ok? && |args| >= 4 ==> r.value.call.args[3] == VArr(RewriteLimit(args[3].entries).value)
  {
    match Bind(RangeByScoreSig, args)
    case Fail(e) => Fail(e)
    case Ok(b) =>
      match RewriteLimit(b.fixed[3].entries)
      case Fail(e) => Fail(e)
      case Ok(options) => Ok(Direct(NativeCall(native, b.fixed[..3] + [VArr(options)]), AsIs))
  }

  /** `callZrangebyscore`: the shared `RangeByScore` routine with its native name. */
  function CallZrangebyscore(args: seq<Val>): Res<Plan> {
    RangeByScore("zRangeByScore", args)
  }

  /** `callZrevrangebyscore`: the shared `RangeByScore` routine with its native name. */
  function CallZrevrangebyscore(args: seq<Val>): Res<Plan> {
    RangeByScore("zRevRangeByScore", args)
  }

  /** `zinterstore`/`zunionstore`: weights default to null, aggregate to `'sum'`. */
  function Store(native: string, args: seq<Val>): (r: Res<Plan>)
    ensures r.Ok? <==> |args| >= 2 && args[0].VStr? && args[1].VArr? && (|args| >= 3 ==> args[2].VArr?)
    ensures r.Ok? ==>
      var options := if |args| >= 3 then args[2].entries else [];
      r.value == Direct(NativeCall(native, [args[0], args[1],
                                            FieldOr(options, KStr("weights"), VNull),
                                            FieldOr(options, KStr("aggregate"), VStr("sum"))]), AsIs)
  {
    match Bind(StoreSig, args)
    case Fail(e) => Fail(e)
    case Ok(b) =>
      var options := b.fixed[2].entries;
      Ok(Direct(NativeCall(native, [b.fixed[0], b.fixed[1],
                                    FieldOr(options, KStr("weights"), VNull),
                                    FieldOr(options, KStr("aggregate"), VStr("sum"))]), AsIs))
  }

  /** `callZinterstore`: the shared `Store` routine with its native name. */
  function CallZinterstore(args: seq<Val>): Res<Plan> {
    Store("zinterstore", args)
  }

  /** `callZunionstore`: the shared `Store` routine with its native name. */
  function CallZunionstore(args: seq<Val>): Res<Plan> {
    Store("zunionstore", args)
  }

  // ---------------------------------------------------------------------
  // eval / evalsha / flushdb / executeRaw

  function CallEval(args: seq<Val>): (r: Res<Plan>)
    ensures r.Ok? <==> |args| >= 2 && args[0].VStr? && args[1].VInt?
    ensures r.Ok? ==> r.value == Direct(NativeCall("eval", [args[0], VArr(ListOf(args[2..])), args[1]]), AsIs)
  {
    match Bind(EvalSig, args)
    case Fail(e) => Fail(e)
    case Ok(b) => Ok(Direct(NativeCall("eval", [b.fixed[0], VArr(ListOf(b.rest)), b.fixed[1]]), AsIs))
  }

  function CallEvalsha(args: seq<Val>): (r: Res<Plan>)
    ensures r.Ok? <==> |args| >= 2 && args[0].VStr? && args[1].VInt?
    ensures r.Ok? ==> r.value == LoadThenEvalSha(args[0], VArr(ListOf(args[2..])), args[1])
  {
    match Bind(EvalSig, args)
    case Fail(e) => Fail(e)
    case Ok(b) => Ok(LoadThenEvalSha(b.fixed[0], VArr(ListOf(b.rest)), b.fixed[1]))
  }

  /** Decimal form of an integer, as `(string)` writes it. */
  /** No string form of a scalar other than a string upper-cases to `ASYNC`:
      only a string or an object's `__toString` can read as it. */
  lemma OnlyStringsReadAsync(v: Val)
    requires StringCast(v).Ok?
    ensures Upper(StringCast(v).value) == "ASYNC" ==> v.VStr? || v.VObj?
  {
    var s := StringCast(v).value;
    if v.VInt? {
      assert Upper(s)[0] == UpperChar(s[0]) != 'A';
    } else if v.VArr? {
      assert Upper(s)[1] == 'R';
    }
  }

  /** `flushdb`: the asynchronous form exactly for `async` in any letter
      case, given as a string or as an object whose `__toString` returns it;
      an object without a string form, or a closure, raises. */
  function CallFlushdb(args: seq<Val>): (r: Res<Plan>)
    ensures r.Fail? <==>
      (ArgOr(args, 0, VNull).VObj? && ArgOr(args, 0, VNull).text.None?) || ArgOr(args, 0, VNull).VFn?
    ensures r.Ok? ==>
      r.value == Direct(NativeCall("flushdb", [VBool(true)]), AsIs) || r.value == Direct(NativeCall("flushdb", []), AsIs)
    ensures r == Ok(Direct(NativeCall("flushdb", [VBool(true)]), AsIs)) <==>
      && |args| > 0
      && ((args[0].VStr? && Upper(args[0].s) == "ASYNC")
          || (args[0].VObj? && args[0].text.Some? && Upper(args[0].text.value) == "ASYNC"))
  {
    var first := ArgOr(args, 0, VNull);
    match StringCast(first)
    case Fail(e) => Fail(e)
    case Ok(s) =>
      OnlyStringsReadAsync(first);
      if Upper(s) == "ASYNC" then Ok(Direct(NativeCall("flushdb", [VBool(true)]), AsIs))
      else Ok(Direct(NativeCall("flushdb", []), AsIs))
  }

  function CallExecuteRaw(args: seq<Val>): (r: Res<Plan>)
    ensures r.Ok? <==> |args| >= 1 && args[0].VArr?
    ensures r.Ok? ==> r.value == Direct(NativeCall("rawCommand", ValuesOf(args[0].entries)), AsIs)
  {
    match Bind(ExecuteRawSig, args)
    case Fail(e) => Fail(e)
    case Ok(b) => Ok(Direct(NativeCall("rawCommand", ValuesOf(b.fixed[0].entries)), AsIs))
  }

  // ---------------------------------------------------------------------
  // The routine table: `call` + ucfirst(name), looked up case-insensitively.

  const RoutineNames: set<string> := {
    "get", "mget", "set", "setnx", "hmget", "hmset", "hsetnx", "lrem", "blpop", "brpop", "spop",
    "zadd", "zrangebyscore", "zrevrangebyscore", "zinterstore", "zunionstore",
    "eval", "evalsha", "flushdb", "executeraw"}

  /** Lower-casing a string is lower-casing each character. */
  lemma LowerEach(s: string, t: string)
    requires |s| == |t| && forall i :: 0 <= i < |s| ==> LowerChar(s[i]) == t[i]
    ensures Lower(s) == t
  {
  }

  /** The native method names the routines call, lower-cased. */
  lemma NativeNamesLowered()
    ensures Lower("mGet") == "mget" && Lower("setNx") == "setnx" && Lower("hMGet") == "hmget"
    ensures Lower("hMSet") == "hmset" && Lower("hSetNx") == "hsetnx" && Lower("lRem") == "lrem"
    ensures Lower("blPop") == "blpop" && Lower("brPop") == "brpop" && Lower("sPop") == "spop"
    ensures Lower("zAdd") == "zadd" && Lower("zRangeByScore") == "zrangebyscore"
    ensures Lower("zRevRangeByScore") == "zrevrangebyscore"
    ensures Lower("get") == "get" && Lower("set") == "set" && Lower("eval") == "eval" && Lower("flushdb") == "flushdb"
    ensures Lower("zinterstore") == "zinterstore" && Lower("zunionstore") == "zunionstore"
  {
    LowerEach("mGet", "mget");
    LowerEach("setNx", "setnx");
    LowerEach("hMGet", "hmget");
    LowerEach("hMSet", "hmset");
    LowerEach("hSetNx", "hsetnx");
    LowerEach("lRem", "lrem");
    LowerEach("blPop", "blpop");
    LowerEach("brPop", "brpop");
    LowerEach("sPop", "spop");
    LowerEach("zAdd", "zadd");
    LowerEach("zRangeByScore", "zrangebyscore");
    LowerEach("zRevRangeByScore", "zrevrangebyscore");
    LowerEach("get", "get");
    LowerEach("set", "set");
    LowerEach("eval", "eval");
    LowerEach("flushdb", "flushdb");
    LowerEach("zinterstore", "zinterstore");
    LowerEach("zunionstore", "zunionstore");
  }

  /** The plan of the routine registered under the lower-cased name `lname`. */
  function Routine(lname: string, args: seq<Val>): (r: Res<Plan>)
    requires lname in RoutineNames
    // Only evalsha makes two native calls.
    ensures r.Ok? ==> (r.value.LoadThenEvalSha? <==> lname == "evalsha")
    // Every other routine calls the native method of its own name, up to
    // letter case; executeRaw alone calls `rawCommand`.
    ensures r.Ok? && r.value.Direct? && lname != "executeraw" ==> Lower(r.value.call.name) == lname
    ensures r.Ok? && lname == "executeraw" ==> r.value.Direct? && r.value.call.name == "rawCommand"
  {
    NativeNamesLowered();
    match lname
    case "get" => CallGet(args)
    case "mget" => CallMget(args)
    case "set" => CallSet(args)
    case "setnx" => CallSetnx(args)
    case "hmget" => CallHmget(args)
    case "hmset" => CallHmset(args)
    case "hsetnx" => CallHsetnx(args)
    case "lrem" => CallLrem(args)
    case "blpop" => CallBlpop(args)
    case "brpop" => CallBrpop(args)
    case "spop" => CallSpop(args)
    case "zadd" => CallZadd(args)
    case "zrangebyscore" => CallZrangebyscore(args)
    case "zrevrangebyscore" => CallZrevrangebyscore(args)
    case "zinterstore" => CallZinterstore(args)
    case "zunionstore" => CallZunionstore(args)
    case "eval" => CallEval(args)
    case "evalsha" => CallEvalsha(args)
    case "flushdb" => CallFlushdb(args)
    case "executeraw" => CallExecuteRaw(args)
  }

  /** Runs a routine: a binding or reshaping error raises before any native call. */
  function RunRoutine(c: Client, lname: string, args: seq<Val>): (r: Run)
    requires lname in RoutineNames
    ensures Routine(lname, args).Fail? ==> r == Run(Throw(Routine(lname, args).err), [])
    ensures Routine(lname, args).Ok? ==> r == RunPlan(c, Routine(lname, args).value)
  {
    match Routine(lname, args)
    case Fail(e) => Run(Throw(e), [])
    case Ok(p) => RunPlan(c, p)
  }
}

=== FILE: multiexec.dfy ===
/** The multi/exec coordinator (`MultiExec` trait, on the dispatcher):
    `pipeline` and `transaction` dispatch their start command, hand the batch
    handle to the callback, call `exec` on it once, and release the pin they
    created in `finally`. */
module MultiExec {
  import opened Php
  import opened Native
  import opened Dispatcher
  import Connection

  /** A user callback, by what it does with the handle it is given: the
      calls it makes on it, in order, and the exception it raises after
      them, if any. */
  datatype Callback = Callback(queued: seq<NativeCall>, raises: Option<Err>)

  const Exec := NativeCall("exec", [])

  /** `tap($handle, $callback)->exec()`. On an object the callback's calls
      are queued, then `exec` flushes them; on anything else the first
      method call (the callback's or `exec`) is a call on a non-object. */
  function RunBatch(c: Client, handle: Val, cb: Callback): (r: Run)
    ensures handle.VObj? && cb.raises.None? ==> r == Run(c.reply(Exec), cb.queued + [Exec])
    ensures handle.VObj? && cb.raises.Some? ==> r == Run(Throw(cb.raises.value), cb.queued)
    ensures !handle.VObj? ==> r.out.Throw? && r.trace == []
    ensures !handle.VObj? && |cb.queued| > 0 ==> r.out == Throw(EngineError)
    ensures !handle.VObj? && cb == Callback([], None) ==> r.out == Throw(EngineError)
  {
    if handle.VObj? then
      if cb.raises.Some? then Run(Throw(cb.raises.value), cb.queued)
      else Run(c.reply(Exec), cb.queued + [Exec])
    else if |cb.queued| > 0 then Run(Throw(EngineError), [])
    else if cb.raises.Some? then Run(Throw(cb.raises.value), [])
    else Run(Throw(EngineError), [])
  }

  /** `executeMultiExec($command, $callback)` on a dispatcher. */
  function ExecuteMultiExec(s: State, c: Client, redis: Redis, fromPool: Conn, command: string, callback: Option<Callback>): (r: Step)
    // No callback: exactly the dispatcher's step.
    ensures callback.None? ==> r == Call(s, c, redis, fromPool, command, [])
    // The start command failing ends it: no exec, no release of its own.
    ensures callback.Some? && Call(s, c, redis, fromPool, command, []).out.Throw? ==>
      r == Call(s, c, redis, fromPool, command, [])
    // Otherwise the batch's outcome is the result, after the start command's native calls.
    ensures callback.Some? && Call(s, c, redis, fromPool, command, []).out.Return? ==>
      var start := Call(s, c, redis, fromPool, command, []);
      var batch := RunBatch(c, start.out.v, callback.value);
      && r.out == batch.out
      && r.trace == start.trace + batch.trace
      && (ContextKey(redis.poolName) in s.context ==> r.state == start.state)
      && (ContextKey(redis.poolName) !in s.context ==> r.state == ReleaseContextConnection(start.state, redis.poolName))
  {
    var start := Call(s, c, redis, fromPool, command, []);
    if callback.None? || start.out.Throw? then start
    else
      var hadPin := ContextKey(redis.poolName) in s.context;
      var batch := RunBatch(c, start.out.v, callback.value);
      var s1 := if hadPin then start.state else ReleaseContextConnection(start.state, redis.poolName);
      Step(s1, batch.out, start.trace + batch.trace)
  }

  /** `pipeline($callback)`. */
  function Pipeline(s: State, c: Client, redis: Redis, fromPool: Conn, callback: Option<Callback>): (r: Step)
    ensures r == ExecuteMultiExec(s, c, redis, fromPool, "pipeline", callback)
    ensures (if ContextKey(redis.poolName) in s.context then s.context[ContextKey(redis.poolName)] else fromPool).isRedisConnection ==>
      |r.trace| >= 1 && r.trace[0] == NativeCall("pipeline", [])
    ensures callback.None? && ContextKey(redis.poolName) !in s.context && fromPool.isRedisConnection ==>
      r.state.context == s.context[ContextKey(redis.poolName) := fromPool]
  {
    var conn := if ContextKey(redis.poolName) in s.context then s.context[ContextKey(redis.poolName)] else fromPool;
    Connection.BatchStartIsForwarded(c, conn.id, "pipeline");
    ExecuteMultiExec(s, c, redis, fromPool, "pipeline", callback)
  }

  /** `transaction($callback)`: the start command is `multi`. */
  function Transaction(s: State, c: Client, redis: Redis, fromPool: Conn, callback: Option<Callback>): (r: Step)
    ensures r == ExecuteMultiExec(s, c, redis, fromPool, "multi", callback)
    ensures (if ContextKey(redis.poolName) in s.context then s.context[ContextKey(redis.poolName)] else fromPool).isRedisConnection ==>
      |r.trace| >= 1 && r.trace[0] == NativeCall("multi", [])
    ensures callback.None? && ContextKey(redis.poolName) !in s.context && fromPool.isRedisConnection ==>
      r.state.context == s.context[ContextKey(redis.poolName) := fromPool]
  {
    var conn := if ContextKey(redis.poolName) in s.context then s.context[ContextKey(redis.poolName)] else fromPool;
    Connection.BatchStartIsForwarded(c, conn.id, "multi");
    ExecuteMultiExec(s, c, redis, fromPool, "multi", callback)
  }

  /** The dispatcher's `return;` on the pin branches means the start command
      hands the coordinator null, never the native batch handle. */
  lemma StartCommandYieldsNull(s: State, c: Client, redis: Redis, fromPool: Conn, command: string)
    requires command == "multi" || command == "pipeline"
    ensures var out := Call(s, c, redis, fromPool, command, []).out;
      out == Return(VNull) || out == Throw(InvalidRedisConnection)
  {
  }

  /** Hence, as written, a batch with a callback always ends in an
      exception reaching the caller (the callback's own, or the call on null). */
  lemma BatchWithCallbackRaises(s: State, c: Client, redis: Redis, fromPool: Conn, command: string, cb: Callback)
    requires command == "multi" || command == "pipeline"
    ensures ExecuteMultiExec(s, c, redis, fromPool, command, Some(cb)).out.Throw?
    ensures cb.raises.None? ==>
      ExecuteMultiExec(s, c, redis, fromPool, command, Some(cb)).out in {Throw(EngineError), Throw(InvalidRedisConnection)}
  {
    StartCommandYieldsNull(s, c, redis, fromPool, command);
  }

  /** With a callback and no pin beforehand, the coordinator releases the
      pin it created exactly once, whatever the callback or `exec` did, and
      leaves the slot empty. */
  lemma CoordinatorReleasesOwnPin(s: State, c: Client, redis: Redis, fromPool: Conn, command: string, cb: Callback)
    requires command == "multi" || command == "pipeline"
    requires ContextKey(redis.poolName) !in s.context && fromPool.isRedisConnection
    ensures var r := ExecuteMultiExec(s, c, redis, fromPool, command, Some(cb));
      && r.state.releases == s.releases + [fromPool.id]
      && r.state.context == s.context
      && r.state.deferred == s.deferred + [ReleaseContext(redis.poolName)]
  {
    var start := Call(s, c, redis, fromPool, command, []);
    assert start.out == Return(VNull);
    assert start.state.context == s.context[ContextKey(redis.poolName) := fromPool];
  }

  /** A pin that existed before the batch is never released by it, and the
      slot still holds the same connection. */
  lemma CoordinatorKeepsExistingPin(s: State, c: Client, redis: Redis, fromPool: Conn, command: string, callback: Option<Callback>)
    requires command == "multi" || command == "pipeline"
    requires ContextKey(redis.poolName) in s.context && s.context[ContextKey(redis.poolName)].isRedisConnection
    ensures var r := ExecuteMultiExec(s, c, redis, fromPool, command, callback);
      && r.state.releases == s.releases
      && r.state.context == s.context
      && r.state.leases == s.leases
  {
  }

  /** The coordinator's release and the dispatcher's deferred release
      together return the connection to the pool exactly once, with or
      without a callback. */
  lemma {:induction false} ReleasedOnceOverall(s: State, c: Client, redis: Redis, fromPool: Conn, command: string, callback: Option<Callback>)
    requires command == "multi" || command == "pipeline"
    requires s.deferred == [] && ContextKey(redis.poolName) !in s.context && fromPool.isRedisConnection
    ensures var end := RunDeferred(ExecuteMultiExec(s, c, redis, fromPool, command, callback).state);
      && end.releases == s.releases + [fromPool.id]
      && end.context == s.context
      && end.deferred == []
  {
    if callback.None? {
      PinReleasedAtEnd(s, c, redis, fromPool, command, []);
    } else {
      CoordinatorReleasesOwnPin(s, c, redis, fromPool, command, callback.value);
      var st := ExecuteMultiExec(s, c, redis, fromPool, command, callback).state;
      RunDeferredOnEmptySlots(st);
    }
  }
}

=== FILE: native.dfy ===
/** The boundary to the native phpredis client and to the base (Hyperf)
    connection class, neither of which is modelled: every call the layer
    makes is recorded as a `NativeCall`, and what the call does is read off
    a `Client` given as a parameter. */
module Native {
  import opened Php

  /** One method call on the native client: method name and argument list. */
  datatype NativeCall = NativeCall(name: string, args: seq<Val>)

  /** The uninterpreted collaborators:
      - `reply`: how a native call ends;
      - `cursorAfter`: the value a scan-family call leaves in its by-reference cursor;
      - `retry`: the base connection's retry after `__call` caught an exception;
      - `parentScan`: the base connection's own scan methods, used with transformation off;
      - `handle`: the native client object itself, as `client()` hands it out. */
  datatype Client = Client(
    reply: NativeCall -> Outcome,
    cursorAfter: NativeCall -> Val,
    retry: (string, seq<Val>, Err) -> Outcome,
    parentScan: NativeCall -> Outcome,
    handle: Val)

  /** What a translated call produced and the native calls it made, in order. */
  datatype Run = Run(out: Outcome, trace: seq<NativeCall>)
}

=== FILE: params.dfy ===
/** Binding a positional argument list to a routine's declared parameters
    under `declare(strict_types=1)`: missing arguments take their defaults or
    raise `ArgumentCountError`, mistyped ones raise `TypeError`, extra ones are
    ignored unless the routine is variadic. */
module Params {
  import opened Php

  /** The declared parameter types the routines use. */
  datatype PType = TString | TNullableString | TInt | TNullableInt | TBool | TArray | TMixed

  /** A parameter: its type and, when optional, its default. */
  datatype Param = Param(ty: PType, default: Option<Val>)

  /** A routine's parameter list; `variadic` adds a trailing `mixed ...$rest`. */
  datatype Sig = Sig(params: seq<Param>, variadic: bool)

  /** The bound arguments: one value per declared parameter, and the variadic tail. */
  datatype Bound = Bound(fixed: seq<Val>, rest: seq<Val>)

  /** Strict typing: no coercion, `null` only where the type is nullable. */
  predicate Accepts(t: PType, v: Val) {
    match t
    case TString => v.VStr?
    case TNullableString => v.VStr? || v == VNull
    case TInt => v.VInt?
    case TNullableInt => v.VInt? || v == VNull
    case TBool => v.VBool?
    case TArray => v.VArr?
    case TMixed => true
  }

  function Required(t: PType): Param {
    Param(t, None)
  }

  function Optional(t: PType, d: Val): Param {
    Param(t, Some(d))
  }

  /** The arguments fit the parameters: every supplied one has its declared
      type and every missing one has a default. */
  predicate Fits(ps: seq<Param>, args: seq<Val>) {
    && (forall i :: 0 <= i < |ps| && i < |args| ==> Accepts(ps[i].ty, args[i]))
    && (forall i :: |args| <= i < |ps| ==> ps[i].default.Some?)
  }

  /** The first failing parameter decides the error, as the engine checks
      parameters left to right. */
  function BindFixed(ps: seq<Param>, args: seq<Val>): (r: Res<seq<Val>>)
    ensures r.Ok? <==> Fits(ps, args)
    ensures r.Ok? ==> |r.value| == |ps|
    ensures r.Ok? ==> forall i :: 0 <= i < |ps| && i < |args| ==> r.value[i] == args[i]
    ensures r.Ok? ==> forall i :: |args| <= i < |ps| ==> Some(r.value[i]) == ps[i].default
    ensures r.Fail? ==> r.err == TypeError || r.err == ArgumentCountError
    decreases |ps|
  {
    if |ps| == 0 then Ok([])
    else if |args| == 0 then
      if ps[0].default.None? then
        assert !Fits(ps, args) by { assert 0 >= |args|; }
        Fail(ArgumentCountError)
      else
        match BindFixed(ps[1..], [])
        case Ok(vs) =>
          assert Fits(ps, args) by {
            forall i | |args| <= i < |ps| ensures ps[i].default.Some? {
              if i > 0 { assert ps[i] == ps[1..][i - 1]; }
            }
          }
          Ok([ps[0].default.value] + vs)
        case Fail(e) =>
          assert !Fits(ps, args) by {
            var j :| 0 <= j < |ps[1..]| && ps[1..][j].default.None?;
            assert ps[j + 1].default.None?;
          }
          Fail(e)
    else if !Accepts(ps[0].ty, args[0]) then
      Fail(TypeError)
    else
      match BindFixed(ps[1..], args[1..])
      case Ok(vs) =>
        assert Fits(ps, args) by {
          forall i | 0 < i < |ps| && i < |args| ensures Accepts(ps[i].ty, args[i]) {
            assert ps[i] == ps[1..][i - 1] && args[i] == args[1..][i - 1];
          }
          forall i | |args| <= i < |ps| ensures ps[i].default.Some? {
            assert ps[i] == ps[1..][i - 1];
          }
        }
        var r := [args[0]] + vs;
        assert forall i :: 0 < i < |ps| && i < |args| ==> r[i] == vs[i - 1] == args[1..][i - 1];
        Ok(r)
      case Fail(e) =>
        assert !Fits(ps, args) by {
          if exists j :: 0 <= j < |ps[1..]| && j < |args[1..]| && !Accepts(ps[1..][j].ty, args[1..][j]) {
            var j :| 0 <= j < |ps[1..]| && j < |args[1..]| && !Accepts(ps[1..][j].ty, args[1..][j]);
            assert !Accepts(ps[j + 1].ty, args[j + 1]);
          } else {
            var j :| |args[1..]| <= j < |ps[1..]| && ps[1..][j].default.None?;
            assert ps[j + 1].default.None?;
          }
        }
        Fail(e)
  }

  /** Binds `args` to `sig`. */
  function Bind(sig: Sig, args: seq<Val>): (r: Res<Bound>)
    ensures r.Ok? <==> Fits(sig.params, args)
    ensures r.Ok? ==> |r.value.fixed| == |sig.params|
    ensures r.Ok? ==> forall i :: 0 <= i < |sig.params| && i < |args| ==> r.value.fixed[i] == args[i]
    ensures r.Ok? ==> forall i :: |args| <= i < |sig.params| ==> Some(r.value.fixed[i]) == sig.params[i].default
    ensures r.Ok? ==> r.value.rest == if sig.variadic && |args| > |sig.params| then args[|sig.params|..] else []
  {
    match BindFixed(sig.params, args)
    case Ok(vs) =>
      Ok(Bound(vs, if sig.variadic && |args| > |sig.params| then args[|sig.params|..] else []))
    case Fail(e) => Fail(e)
  }
}

=== FILE: php.dfy ===
/** PHP values as the connection layer sees them: scalars, ordered arrays,
    objects and closures, plus the handful of engine conversions
    (truthiness, `(int)` casts, array keys) the routines depend on. */
module Php {

  datatype Option<+T> = None | Some(value: T)

  /** An array key: PHP keys are integers or strings. */
  datatype Key = KInt(i: int) | KStr(s: string)

  /** A PHP value. Arrays are ordered maps, kept as a sequence of entries in
      insertion order; an object is a handle plus, when its class defines
      `__toString`, the string that method returns; closures carry the
      adapters the subscribe path builds. */
  datatype Val =
    | VNull
    | VBool(b: bool)
    | VInt(i: int)
    | VStr(s: string)
    | VArr(entries: seq<Entry>)
    | VObj(id: nat, text: Option<string>)
    | VFn(f: Fn)

  datatype Entry = Entry(key: Key, val: Val)

  /** A callable: a user closure, or one of the two adapters that turn the
      native subscribe callback shapes into the portable `(message, channel)`. */
  datatype Fn =
    | UserFn(id: nat)
    | ChannelAdapter(cb: Val)
    | PatternAdapter(cb: Val)

  /** A thrown PHP exception: its class name and message. */
  datatype Err = Err(cls: string, message: string)

  /** How a call ends: with a value or with an exception. */
  datatype Outcome = Return(v: Val) | Throw(e: Err)

  /** A step that either yields a value or raises before anything else happens. */
  datatype Res<+T> = Ok(value: T) | Fail(err: Err)

  const TypeError := Err("TypeError", "")
  const ArgumentCountError := Err("ArgumentCountError", "")
  const ValueError := Err("ValueError", "")
  const EngineError := Err("Error", "")

  /** `empty($v)`, equivalently `!$v`. */
  predicate Falsy(v: Val) {
    match v
    case VNull => true
    case VBool(b) => !b
    case VInt(i) => i == 0
    case VStr(s) => s == "" || s == "0"
    case VArr(es) => |es| == 0
    case VObj(_, _) => false
    case VFn(_) => false
  }

  predicate Truthy(v: Val) {
    !Falsy(v)
  }

  /** The key of an entry read back as a value (`foreach ($a as $k => $v)`). */
  function KeyVal(k: Key): Val {
    match k
    case KInt(i) => VInt(i)
    case KStr(s) => VStr(s)
  }

  /** `$a[$k] ?? null`-style read: the first entry with key `k`. */
  function Lookup(es: seq<Entry>, k: Key): (r: Option<Val>)
    ensures r.Some? <==> exists i :: 0 <= i < |es| && es[i].key == k
    ensures r.Some? ==> exists i :: 0 <= i < |es| && es[i] == Entry(k, r.value)
  {
    if |es| == 0 then None
    else if es[0].key == k then Some(es[0].val)
    else
      var r := Lookup(es[1..], k);
      assert forall i :: 0 <= i < |es| - 1 ==> es[1..][i] == es[i + 1];
      r
  }

  /** Reads `$a[$k] ?? $default`: the default when the key is missing or holds null. */
  function FieldOr(es: seq<Entry>, k: Key, default: Val): (r: Val)
    ensures Lookup(es, k).Some? && Lookup(es, k).value != VNull ==> r == Lookup(es, k).value
    ensures Lookup(es, k).None? || Lookup(es, k).value == VNull ==> r == default
  {
    match Lookup(es, k)
    case Some(v) => if v != VNull then v else default
    case None => default
  }

  /** `$a[$k] = $v`: overwrite the first entry with key `k` in place, or append. */
  function Assign(es: seq<Entry>, k: Key, v: Val): (r: seq<Entry>)
    ensures Lookup(r, k) == Some(v)
    ensures forall k' :: k' != k ==> Lookup(r, k') == Lookup(es, k')
    ensures Lookup(es, k).Some? ==> |r| == |es|
    ensures Lookup(es, k).Some? ==> forall i :: 0 <= i < |es| ==> r[i].key == es[i].key
    ensures Lookup(es, k).Some? ==> forall i :: 0 <= i < |es| && es[i].key != k ==> r[i] == es[i]
    ensures Lookup(es, k).None? ==> r == es + [Entry(k, v)]
  {
    if |es| == 0 then [Entry(k, v)]
    else if es[0].key == k then [Entry(k, v)] + es[1..]
    else [es[0]] + Assign(es[1..], k, v)
  }

  /** A PHP list: keys 0, 1, 2, ... in order. */
  function ListOf(vs: seq<Val>): (r: seq<Entry>)
    ensures |r| == |vs|
    ensures forall i :: 0 <= i < |r| ==> r[i] == Entry(KInt(i), vs[i])
  {
    seq(|vs|, i requires 0 <= i < |vs| => Entry(KInt(i), vs[i]))
  }

  /** `array_values`: the values in order, keys dropped. */
  function ValuesOf(es: seq<Entry>): (r: seq<Val>)
    ensures |r| == |es|
    ensures forall i :: 0 <= i < |r| ==> r[i] == es[i].val
  {
    seq(|es|, i requires 0 <= i < |es| => es[i].val)
  }

  /** `array_is_list`. */
  predicate IsList(es: seq<Entry>) {
    forall i :: 0 <= i < |es| ==> es[i].key == KInt(i)
  }

  lemma ListOfIsList(vs: seq<Val>)
    ensures IsList(ListOf(vs))
    ensures ValuesOf(ListOf(vs)) == vs
  {
  }

  /** `Arr::wrap`: null becomes `[]`, an array stays, anything else becomes `[x]`. */
  function Wrap(v: Val): (r: seq<Entry>)
    ensures v.VArr? ==> r == v.entries
    ensures v == VNull ==> r == []
    ensures !v.VArr? && v != VNull ==> r == ListOf([v])
  {
    match v
    case VNull => []
    case VArr(es) => es
    case _ => ListOf([v])
  }

  /** ASCII case mapping as `strtoupper`/`strtolower` and method-name lookup do it. */
  function UpperChar(c: char): char {
    if 'a' <= c <= 'z' then (c as int - 32) as char else c
  }

  function LowerChar(c: char): char {
    if 'A' <= c <= 'Z' then (c as int + 32) as char else c
  }

  function Upper(s: string): (r: string)
    ensures |r| == |s|
    ensures forall i :: 0 <= i < |s| ==> r[i] == UpperChar(s[i])
  {
    seq(|s|, i requires 0 <= i < |s| => UpperChar(s[i]))
  }

  function Lower(s: string): (r: string)
    ensures |r| == |s|
    ensures forall i :: 0 <= i < |s| ==> r[i] == LowerChar(s[i])
  {
    seq(|s|, i requires 0 <= i < |s| => LowerChar(s[i]))
  }

  predicate IsDigit(c: char) {
    '0' <= c <= '9'
  }

  predicate IsSpace(c: char) {
    c == ' ' || c == '\t' || c == '\n' || c == '\r' || c as int == 11 || c as int == 12
  }

  /** The value of the run of decimal digits at the head of `s`, accumulated onto `acc`. */
  function DigitRun(s: string, acc: nat): nat
    decreases |s|
  {
    if |s| > 0 && IsDigit(s[0]) then DigitRun(s[1..], acc * 10 + (s[0] as int - '0' as int))
    else acc
  }

  function SkipSpace(s: string): (r: string)
    ensures |r| <= |s|
    ensures |r| > 0 ==> !IsSpace(r[0])
    decreases |s|
  {
    if |s| > 0 && IsSpace(s[0]) then SkipSpace(s[1..]) else s
  }

  /** `PHP_INT_MAX` and `PHP_INT_MIN` on a 64-bit build. */
  const IntMax := 0x7fff_ffff_ffff_ffff
  const IntMin := -0x8000_0000_0000_0000

  /** A decimal string too large for a PHP integer reads as the nearest bound. */
  function Saturate(x: int): (r: int)
    ensures IntMin <= r <= IntMax
    ensures IntMin <= x <= IntMax ==> r == x
    ensures x > IntMax ==> r == IntMax
    ensures x < IntMin ==> r == IntMin
  {
    if x > IntMax then IntMax else if x < IntMin then IntMin else x
  }

  /** `(int)` of a string: leading whitespace, an optional sign, then the
      leading decimal digits, saturated to the integer range; 0 when there
      are none. */
  function LeadingInt(s: string): int {
    var t := SkipSpace(s);
    if |t| > 0 && t[0] == '-' then Saturate(-(DigitRun(t[1..], 0) as int))
    else if |t| > 0 && t[0] == '+' then Saturate(DigitRun(t[1..], 0))
    else Saturate(DigitRun(t, 0))
  }

  /** `(int) $v`. */
  function IntCast(v: Val): (r: int)
    ensures v == VBool(true) ==> r == 1
    ensures v == VBool(false) ==> r == 0
    ensures v.VInt? ==> r == v.i
    ensures v == VNull ==> r == 0
    ensures v.VStr? ==> IntMin <= r <= IntMax
    ensures v.VStr? && v.s == "" ==> r == 0
  {
    match v
    case VNull => 0
    case VBool(b) => if b then 1 else 0
    case VInt(i) => i
    case VStr(s) => LeadingInt(s)
    case VArr(es) => if |es| == 0 then 0 else 1
    case VObj(_, _) => 1
    case VFn(_) => 1
  }

  /** The character of the decimal digit `k`. */
  function DigitChar(k: nat): (r: char)
    requires k < 10
    ensures IsDigit(r) && r as int - '0' as int == k
  {
    ('0' as int + k) as char
  }

  /** The decimal digits of `m`, most significant first, as PHP prints an integer. */
  function Digits(m: nat): (r: string)
    ensures |r| > 0
    ensures forall i :: 0 <= i < |r| ==> IsDigit(r[i])
  {
    if m < 10 then [DigitChar(m)] else Digits(m / 10) + [DigitChar(m % 10)]
  }

  /** The string form of an integer: a minus sign for negatives, then its digits. */
  function Decimal(n: int): (r: string)
    ensures |r| > 0 && (r[0] == '-' || IsDigit(r[0]))
  {
    if n < 0 then "-" + Digits(-n) else Digits(n)
  }

  function Pow10(k: nat): (r: nat)
    ensures r >= 1
  {
    if k == 0 then 1 else 10 * Pow10(k - 1)
  }

  /** One digit at the head of the text joins the accumulator. */
  lemma DigitStep(k: nat, rest: string, acc: nat)
    requires k < 10
    ensures DigitRun([DigitChar(k)] + rest, acc) == DigitRun(rest, acc * 10 + k)
  {
    assert ([DigitChar(k)] + rest)[1..] == rest;
  }

  lemma ShiftAdd(acc: nat, p: nat, q: nat, m: nat)
    requires m == q * 10 + m % 10
    ensures (acc * p + q) * 10 + m % 10 == acc * (10 * p) + m
  {
  }

  /** The digits of a number of two or more digits are those of its tens, then its last digit. */
  lemma DigitsSplit(m: nat, rest: string)
    requires m >= 10
    ensures Digits(m) + rest == Digits(m / 10) + ([DigitChar(m % 10)] + rest)
    ensures Pow10(|Digits(m)|) == 10 * Pow10(|Digits(m / 10)|)
  {
    assert Digits(m) == Digits(m / 10) + [DigitChar(m % 10)];
    assert |Digits(m)| == |Digits(m / 10)| + 1;
  }

  /** Reading the digits of `m` shifts the accumulator left by their count and adds `m`. */
  lemma {:induction false} DigitRunDigits(m: nat, rest: string, acc: nat)
    ensures DigitRun(Digits(m) + rest, acc) == DigitRun(rest, acc * Pow10(|Digits(m)|) + m)
    decreases m
  {
    if m < 10 {
      assert Digits(m) == [DigitChar(m)];
      DigitStep(m, rest, acc);
      assert Pow10(1) == 10;
    } else {
      var q := m / 10;
      var p := Pow10(|Digits(q)|);
      DigitsSplit(m, rest);
      DigitRunDigits(q, [DigitChar(m % 10)] + rest, acc);
      DigitStep(m % 10, rest, acc * p + q);
      ShiftAdd(acc, p, q, m);
    }
  }

  /** Leading whitespace is skipped up to the first character that is not whitespace. */
  lemma {:induction false} SkipSpacePrefix(ws: string, t: string)
    requires forall i :: 0 <= i < |ws| ==> IsSpace(ws[i])
    requires |t| > 0 && !IsSpace(t[0])
    ensures SkipSpace(ws + t) == t
    decreases |ws|
  {
    if |ws| > 0 {
      assert (ws + t)[1..] == ws[1..] + t;
      SkipSpacePrefix(ws[1..], t);
    } else {
      assert ws + t == t;
    }
  }

  /** The digits of `m` followed by a character that is not a digit read as `m`. */
  lemma DigitsThenStop(m: nat, junk: string)
    requires |junk| == 0 || !IsDigit(junk[0])
    ensures DigitRun(Digits(m) + junk, 0) == m
  {
    DigitRunDigits(m, junk, 0);
    assert 0 * Pow10(|Digits(m)|) + m == m;
  }

  /** `(int)` reads back the decimal form of an integer, after any leading
      whitespace and before any trailing text that cannot continue the
      number, saturating outside the 64-bit range. */
  lemma {:induction false} IntCastReadsDecimal(ws: string, n: int, junk: string)
    requires forall i :: 0 <= i < |ws| ==> IsSpace(ws[i])
    requires |junk| == 0 || (!IsDigit(junk[0]) && junk[0] != '.' && junk[0] != 'e' && junk[0] != 'E')
    ensures IntCast(VStr(ws + Decimal(n) + junk)) == Saturate(n)
  {
    var t := Decimal(n) + junk;
    assert ws + Decimal(n) + junk == ws + t;
    SkipSpacePrefix(ws, t);
    if n < 0 {
      NegativeReads(-n, junk);
    } else {
      NonNegativeReads(n, junk);
    }
  }

  /** The sign and digits of a negative decimal read back as its value. */
  lemma NegativeReads(m: nat, junk: string)
    requires m > 0
    requires |junk| == 0 || !IsDigit(junk[0])
    ensures var t := Decimal(-(m as int)) + junk;
      |t| > 0 && t[0] == '-' && Saturate(-(DigitRun(t[1..], 0) as int)) == Saturate(-(m as int))
  {
    var t := Decimal(-(m as int)) + junk;
    assert t == "-" + (Digits(m) + junk);
    assert t[1..] == Digits(m) + junk;
    DigitsThenStop(m, junk);
  }

  /** The digits of a non-negative decimal read back as its value. */
  lemma NonNegativeReads(m: nat, junk: string)
    requires |junk| == 0 || !IsDigit(junk[0])
    ensures var t := Decimal(m) + junk;
      |t| > 0 && t[0] != '-' && t[0] != '+' && Saturate(DigitRun(t, 0)) == Saturate(m)
  {
    var t := Decimal(m) + junk;
    assert t == Digits(m) + junk;
    DigitsThenStop(m, junk);
  }

  /** Printing an integer and casting it back with `(int)` is the identity. */
  lemma IntCastDecimalRoundTrip(n: int)
    requires IntMin <= n <= IntMax
    ensures IntCast(VStr(Decimal(n))) == n
  {
    IntCastReadsDecimal("", n, "");
    assert "" + Decimal(n) + "" == Decimal(n);
  }

  /** `(string) $v`: integers in decimal, true as "1", false and null as "",
      arrays as "Array", objects through `__toString`; an object whose class
      has no `__toString`, and a closure, raise `Error`. */
  function StringCast(v: Val): (r: Res<string>)
    ensures v.VStr? ==> r == Ok(v.s)
    ensures v.VInt? ==> r == Ok(Decimal(v.i))
    ensures v.VObj? && v.text.Some? ==> r == Ok(v.text.value)
    ensures v == VNull || v == VBool(false) ==> r == Ok("")
    ensures v == VBool(true) ==> r == Ok("1")
    ensures v.VArr? ==> r == Ok("Array")
    ensures r.Fail? <==> (v.VObj? && v.text.None?) || v.VFn?
    ensures r.Fail? ==> r.err == EngineError
  {
    match v
    case VNull => Ok("")
    case VBool(b) => Ok(if b then "1" else "")
    case VInt(i) => Ok(Decimal(i))
    case VStr(s) => Ok(s)
    case VArr(_) => Ok("Array")
    case VObj(_, text) => if text.Some? then Ok(text.value) else Fail(EngineError)
    case VFn(_) => Fail(EngineError)
  }

  predicate AllDigits(s: string) {
    forall i :: 0 <= i < |s| ==> IsDigit(s[i])
  }

  /** Digits without a leading zero, or the single digit `0`. */
  predicate PlainDigits(t: string) {
    |t| > 0 && AllDigits(t) && (t[0] != '0' || |t| == 1)
  }

  /** Reading one more digit at the end multiplies by ten and adds it. */
  lemma {:induction false} DigitRunSnoc(u: string, c: char, acc: nat)
    requires AllDigits(u) && IsDigit(c)
    ensures DigitRun(u + [c], acc) == DigitRun(u, acc) * 10 + (c as int - '0' as int)
    decreases |u|
  {
    if |u| == 0 {
      assert u + [c] == [c];
      assert [c][1..] == [];
    } else {
      var acc' := acc * 10 + (u[0] as int - '0' as int);
      assert (u + [c])[1..] == u[1..] + [c];
      DigitRunSnoc(u[1..], c, acc');
    }
  }

  /** A run of digits that does not start with `0` reads as a positive number. */
  lemma DigitRunPositive(u: string)
    requires |u| > 0 && AllDigits(u) && u[0] != '0'
    ensures DigitRun(u, 0) >= 1
  {
    DigitRunAtLeast(u[1..], u[0] as int - '0' as int);
  }

  lemma {:induction false} DigitRunAtLeast(u: string, acc: nat)
    requires AllDigits(u)
    ensures DigitRun(u, acc) >= acc
    decreases |u|
  {
    if |u| > 0 {
      DigitRunAtLeast(u[1..], acc * 10 + (u[0] as int - '0' as int));
    }
  }

  /** Plain digits are exactly how their value prints. */
  lemma {:induction false} PlainDigitsPrint(t: string)
    requires PlainDigits(t)
    ensures Digits(DigitRun(t, 0)) == t
    decreases |t|
  {
    var c := t[|t| - 1];
    var k := c as int - '0' as int;
    assert DigitChar(k) == c;
    if |t| == 1 {
      assert t == [] + [c];
      DigitRunSnoc([], c, 0);
    } else {
      var u := t[..|t| - 1];
      assert t == u + [c];
      DigitRunSnoc(u, c, 0);
      DigitRunPositive(u);
      var w := DigitRun(u, 0);
      PlainDigitsPrint(u);
      assert DigitRun(t, 0) == w * 10 + k;
      assert (w * 10 + k) / 10 == w && (w * 10 + k) % 10 == k;
    }
  }

  /** The digits of a positive number do not start with `0`. */
  lemma {:induction false} DigitsArePlain(m: nat)
    ensures PlainDigits(Digits(m))
    ensures m >= 1 ==> Digits(m)[0] != '0'
    decreases m
  {
    if m >= 10 {
      DigitsArePlain(m / 10);
      assert Digits(m)[0] == Digits(m / 10)[0];
    }
  }

  /** The key a string becomes in a PHP array: an optional minus sign, then
      plain digits (`"5"`, `"-12"`, `"0"`, but not `"05"`, `"+5"` or `"-0"`)
      within the integer range become that integer; any other string stays a
      string key. */
  /** Digits read as a key print back as themselves, with a `-` in front
      when they were negated. */
  lemma KeyDigitsPrint(s: string, t: string, neg: bool)
    requires PlainDigits(t) && !(neg && t == "0")
    requires s == if neg then "-" + t else t
    ensures s == Decimal(if neg then -(DigitRun(t, 0) as int) else DigitRun(t, 0))
  {
    PlainDigitsPrint(t);
    if neg {
      DigitRunPositive(t);
    }
  }

  function StringKey(s: string): (r: Key)
    ensures r.KInt? ==> IntMin <= r.i <= IntMax && s == Decimal(r.i)
    ensures r.KStr? ==> r.s == s
  {
    var neg := |s| > 0 && s[0] == '-';
    var t := if neg then s[1..] else s;
    if PlainDigits(t) && !(neg && t == "0") then
      var v := DigitRun(t, 0);
      if neg && v <= IntMax + 1 then
        KeyDigitsPrint(s, t, neg);
        KInt(-(v as int))
      else if !neg && v <= IntMax then
        KeyDigitsPrint(s, t, neg);
        KInt(v)
      else KStr(s)
    else KStr(s)
  }

  /** A string is an integer key exactly when it is the decimal form of an
      integer in range, and then it is that integer. */
  lemma StringKeyCanonical(s: string)
    ensures StringKey(s).KStr? <==> forall n :: IntMin <= n <= IntMax ==> Decimal(n) != s
    ensures forall n :: IntMin <= n <= IntMax && Decimal(n) == s ==> StringKey(s) == KInt(n)
  {
    forall n | IntMin <= n <= IntMax && Decimal(n) == s
      ensures StringKey(s) == KInt(n)
    {
      var m: nat := if n < 0 then -n else n;
      DigitsArePlain(m);
      DigitsThenStop(m, "");
      assert Digits(m) + "" == Digits(m);
      if n < 0 {
        assert s[1..] == Digits(m);
      } else {
        assert s == Digits(m);
      }
    }
  }

  /** Distinct strings are distinct keys. */
  lemma StringKeyInjective(s: string, t: string)
    ensures StringKey(s) == StringKey(t) ==> s == t
  {
  }

  /** The key `array_combine` files a value under: integers stay integers,
      everything else goes through its string form (`CombineKeyIsStringKey`),
      which a decimal integer string turns back into an integer key. */
  function CombineKey(v: Val): (r: Res<Key>)
    ensures v.VInt? ==> r == Ok(KInt(v.i))
    ensures v.VStr? ==> r == Ok(StringKey(v.s))
    ensures v.VObj? && v.text.Some? ==> r == Ok(StringKey(v.text.value))
    ensures v == VNull || v == VBool(false) ==> r == Ok(KStr(""))
    ensures v == VBool(true) ==> r == Ok(KInt(1))
    ensures v.VArr? ==> r == Ok(KStr("Array"))
    ensures r.Fail? <==> (v.VObj? && v.text.None?) || v.VFn?
  {
    match v
    case VNull => Ok(KStr(""))
    case VBool(b) => if b then Ok(KInt(1)) else Ok(KStr(""))
    case VInt(i) => Ok(KInt(i))
    case VStr(s) => Ok(StringKey(s))
    case VArr(_) => Ok(KStr("Array"))
    case VObj(_, text) => if text.Some? then Ok(StringKey(text.value)) else Fail(EngineError)
    case VFn(_) => Fail(EngineError)
  }

  /** Every value but an integer is filed under the key of its string form,
      and a value without a string form has no key. */
  lemma CombineKeyIsStringKey(v: Val)
    requires !v.VInt?
    ensures StringCast(v).Ok? ==> CombineKey(v) == Ok(StringKey(StringCast(v).value))
    ensures StringCast(v).Fail? <==> CombineKey(v).Fail?
  {
    if v == VBool(true) {
      assert Decimal(1) == "1";
      IntCastDecimalRoundTrip(1);
    } else if v.VNull? || v.VBool? {
      assert Decimal(0) == "0";
    } else if v.VArr? {
      assert StringCast(v).value == "Array";
      assert LeadingInt("Array") == 0;
      assert Decimal(0) == "0";
    }
  }
}

=== FILE: scan.dfy ===
/** The cursor-based scan methods (`scan`, `zscan`, `hscan`, `sscan`): option
    defaults, the native call with its by-reference cursor, and the rule that
    decides when the iteration is over. */
module ScanFamily {
  import opened Php
  import opened Native

  datatype Kind = KeyScan | SortedSetScan | HashScan | SetScan

  /** The native method the transforming path calls. */
  function NativeName(k: Kind): string {
    match k
    case KeyScan => "scan"
    case SortedSetScan => "zscan"
    case HashScan => "hscan"
    case SetScan => "sscan"
  }

  /** The base connection's method the non-transforming path defers to. */
  function ParentName(k: Kind): string {
    match k
    case KeyScan => "scan"
    case SortedSetScan => "zScan"
    case HashScan => "hScan"
    case SetScan => "sScan"
  }

  const DefaultMatch := VStr("*")
  const DefaultCount := VInt(10)

  /** `getScanOptions` as written: `is_array($arguments[0] ?? [])` holds for
      a missing or null first argument, and the function then returns that
      null where its declared return type is `array`, which raises. An array
      is the options themselves; anything else is a positional pattern,
      followed by an optional count. */
  function ScanOptionsAsWritten(arguments: seq<Val>): (r: Res<seq<Entry>>)
    ensures r.Fail? <==> |arguments| == 0 || arguments[0] == VNull
    ensures r.Fail? ==> r.err == TypeError
    ensures r.Ok? ==> r.value == ScanOptions(arguments)
  {
    var first := if |arguments| > 0 then arguments[0] else VNull;
    if first.VArr? then Ok(first.entries)
    else if first == VNull then Fail(TypeError)
    else
      var second := if |arguments| > 1 then arguments[1] else VNull;
      Ok([Entry(KStr("match"), first), Entry(KStr("count"), if second != VNull then second else DefaultCount)])
  }

  /** `getScanOptions` as evidently intended: the array test applies to the
      first argument itself, so a missing or null pattern falls to the
      positional branch and its `?? '*'`, keeping any count given after it. */
  function ScanOptions(arguments: seq<Val>): (r: seq<Entry>)
    ensures |arguments| > 0 && arguments[0].VArr? ==> r == arguments[0].entries
    ensures !(|arguments| > 0 && arguments[0].VArr?) ==>
      && Lookup(r, KStr("match")) == Some(if |arguments| > 0 && arguments[0] != VNull then arguments[0] else DefaultMatch)
      && Lookup(r, KStr("count")) == Some(if |arguments| > 1 && arguments[1] != VNull then arguments[1] else DefaultCount)
  {
    var first := if |arguments| > 0 then arguments[0] else VNull;
    if first.VArr? then first.entries
    else
      var second := if |arguments| > 1 then arguments[1] else VNull;
      [Entry(KStr("match"), if first != VNull then first else DefaultMatch),
       Entry(KStr("count"), if second != VNull then second else DefaultCount)]
  }

  /** The pattern and count sent to the native scan: `?? '*'` and `?? 10`. */
  function MatchOf(options: seq<Entry>): Val {
    FieldOr(options, KStr("match"), DefaultMatch)
  }

  function CountOf(options: seq<Entry>): Val {
    FieldOr(options, KStr("count"), DefaultCount)
  }

  /** As written, a scan without a pattern raises instead of scanning; the
      corrected options scan with `'*'` and the given count, or 10. */
  lemma ScanWithoutOptions(arguments: seq<Val>)
    requires |arguments| == 0 || arguments[0] == VNull
    ensures ScanOptionsAsWritten(arguments) == Fail(TypeError)
    ensures MatchOf(ScanOptions(arguments)) == DefaultMatch
    ensures |arguments| > 1 && arguments[1] != VNull ==> CountOf(ScanOptions(arguments)) == arguments[1]
    ensures (|arguments| <= 1 || arguments[1] == VNull) ==> CountOf(ScanOptions(arguments)) == DefaultCount
  {
  }

  /** A positional pattern and count reach the native call unchanged; a
      missing or null count becomes 10. */
  lemma {:induction false} PositionalScanOptions(pattern: Val, count: seq<Val>)
    requires pattern != VNull && !pattern.VArr? && |count| <= 1
    ensures MatchOf(ScanOptions([pattern] + count)) == pattern
    ensures |count| == 1 && count[0] != VNull ==> CountOf(ScanOptions([pattern] + count)) == count[0]
    ensures (|count| == 0 || count[0] == VNull) ==> CountOf(ScanOptions([pattern] + count)) == DefaultCount
  {
    var args := [pattern] + count;
    assert args[0] == pattern;
    assert |count| == 1 ==> args[1] == count[0];
  }

  /** A native `false` page is an empty page. */
  function PageOf(result: Val): (r: Val)
    ensures result == VBool(false) ==> r == VArr([])
    ensures result != VBool(false) ==> r == result
  {
    if result == VBool(false) then VArr([]) else result
  }

  /** The value a transforming scan returns: `false` only once the cursor is
      back at integer 0 with nothing on the page, otherwise `[cursor, page]`. */
  function ScanResult(cursor: Val, result: Val): (r: Val)
    ensures r == VBool(false) <==> cursor == VInt(0) && Falsy(PageOf(result))
    ensures r != VBool(false) ==> r == VArr(ListOf([cursor, PageOf(result)]))
  {
    var page := PageOf(result);
    if cursor == VInt(0) && Falsy(page) then VBool(false) else VArr(ListOf([cursor, page]))
  }

  /** A scan call: its outcome, the cursor it leaves behind, and the native calls made. */
  datatype ScanRun = ScanRun(out: Outcome, cursor: Val, trace: seq<NativeCall>)

  /** One scan-family call as the code is written: `getScanOptions` raising
      `TypeError` ends the call before the native scan, the cursor untouched. */
  function ScanAsWritten(c: Client, transform: bool, kind: Kind, target: seq<Val>, cursor: Val, arguments: seq<Val>): (r: ScanRun)
    ensures transform && ScanOptionsAsWritten(arguments).Fail? ==> r == ScanRun(Throw(TypeError), cursor, [])
    ensures transform && ScanOptionsAsWritten(arguments).Ok? ==>
      var options := ScanOptionsAsWritten(arguments).value;
      var call := NativeCall(NativeName(kind), target + [cursor, MatchOf(options), CountOf(options)]);
      && r.trace == [call]
      && r.cursor == c.cursorAfter(call)
      && (c.reply(call).Throw? ==> r.out == c.reply(call))
      && (c.reply(call).Return? ==> r.out == Return(ScanResult(c.cursorAfter(call), c.reply(call).v)))
  {
    if !transform then
      var call := NativeCall(ParentName(kind), target + [cursor] + arguments);
      ScanRun(c.parentScan(call), c.cursorAfter(call), [])
    else
      match ScanOptionsAsWritten(arguments)
      case Fail(e) => ScanRun(Throw(e), cursor, [])
      case Ok(options) =>
        var call := NativeCall(NativeName(kind), target + [cursor, MatchOf(options), CountOf(options)]);
        var o := c.reply(call);
        var next := c.cursorAfter(call);
        ScanRun(if o.Throw? then o else Return(ScanResult(next, o.v)), next, [call])
  }

  /** One scan-family call with the corrected options. `target` is `[]` for
      `scan` and `[$key]` for the others. With transformation off the base
      class's method handles it. */
  function Scan(c: Client, transform: bool, kind: Kind, target: seq<Val>, cursor: Val, arguments: seq<Val>): (r: ScanRun)
    ensures !transform ==>
      var call := NativeCall(ParentName(kind), target + [cursor] + arguments);
      r == ScanRun(c.parentScan(call), c.cursorAfter(call), [])
    ensures transform ==>
      var options := ScanOptions(arguments);
      var call := NativeCall(NativeName(kind), target + [cursor, MatchOf(options), CountOf(options)]);
      && r.trace == [call]
      && r.cursor == c.cursorAfter(call)
      && (c.reply(call).Throw? ==> r.out == c.reply(call))
      && (c.reply(call).Return? ==> r.out == Return(ScanResult(c.cursorAfter(call), c.reply(call).v)))
  {
    if !transform then
      var call := NativeCall(ParentName(kind), target + [cursor] + arguments);
      ScanRun(c.parentScan(call), c.cursorAfter(call), [])
    else
      var options := ScanOptions(arguments);
      var call := NativeCall(NativeName(kind), target + [cursor, MatchOf(options), CountOf(options)]);
      var o := c.reply(call);
      var next := c.cursorAfter(call);
      ScanRun(if o.Throw? then o else Return(ScanResult(next, o.v)), next, [call])
  }

  /** The corrected scan differs from the code as written exactly on the
      calls whose pattern is missing or null: there the code raises and
      makes no native call, where the corrected scan runs with `'*'`. */
  lemma ScanAsWrittenAgrees(c: Client, transform: bool, kind: Kind, target: seq<Val>, cursor: Val, arguments: seq<Val>)
    ensures !transform || (|arguments| > 0 && arguments[0] != VNull) ==>
      ScanAsWritten(c, transform, kind, target, cursor, arguments) == Scan(c, transform, kind, target, cursor, arguments)
    ensures transform && (|arguments| == 0 || arguments[0] == VNull) ==>
      && ScanAsWritten(c, transform, kind, target, cursor, arguments) == ScanRun(Throw(TypeError), cursor, [])
      && |Scan(c, transform, kind, target, cursor, arguments).trace| == 1
      && MatchOf(ScanOptions(arguments)) == DefaultMatch
  {
  }
}

=== FILE: subscribe.dfy ===
/** The subscribe path: the read timeout is lifted for the life of the
    subscription and restored afterwards, and the portable callback
    `(message, channel)` is adapted to the native callback shapes. */
module Subscribe {
  import opened Php
  import opened Native

  /** phpredis's `Redis::OPT_READ_TIMEOUT`. */
  const OptReadTimeout := VInt(3)

  const GetTimeout := NativeCall("getOption", [OptReadTimeout])

  /** -1: no read timeout while the subscription blocks. */
  const LiftTimeout := NativeCall("setOption", [OptReadTimeout, VInt(-1)])

  /** `getSubscribeArguments`: the channels wrapped into an array and the
      callback wrapped into the adapter for `name`. */
  function SubscribeArguments(name: string, arguments: seq<Entry>): (r: seq<Val>)
    ensures |r| == 2
    ensures r[0] == VArr(Wrap(FieldOr(arguments, KInt(0), VNull)))
    ensures name == "subscribe" ==> r[1] == VFn(ChannelAdapter(FieldOr(arguments, KInt(1), VNull)))
    ensures name != "subscribe" ==> r[1] == VFn(PatternAdapter(FieldOr(arguments, KInt(1), VNull)))
  {
    var channels := VArr(Wrap(FieldOr(arguments, KInt(0), VNull)));
    var callback := FieldOr(arguments, KInt(1), VNull);
    if name == "subscribe" then [channels, VFn(ChannelAdapter(callback))]
    else [channels, VFn(PatternAdapter(callback))]
  }

  /** `callSubscribe`: read the timeout, set it to -1, subscribe, and restore
      it in `finally`; an exception from the restore replaces the outcome. */
  function CallSubscribe(c: Client, name: string, arguments: seq<Entry>): (r: Run)
    ensures |r.trace| >= 1 && r.trace[0] == GetTimeout
    ensures |r.trace| >= 2 ==> r.trace[1] == LiftTimeout
    ensures |r.trace| >= 3 ==> |r.trace| == 4 && r.trace[2] == NativeCall(name, SubscribeArguments(name, arguments))
    ensures |r.trace| == 4 ==>
      var original := c.reply(r.trace[0]);
      original.Return? && r.trace[3] == NativeCall("setOption", [OptReadTimeout, original.v])
    ensures c.reply(GetTimeout).Throw? ==> r == Run(c.reply(GetTimeout), [GetTimeout])
    ensures c.reply(GetTimeout).Return? && c.reply(LiftTimeout).Throw? ==>
      r == Run(c.reply(LiftTimeout), [GetTimeout, LiftTimeout])
    ensures c.reply(GetTimeout).Return? && c.reply(LiftTimeout).Return? ==> |r.trace| == 4
    ensures |r.trace| == 4 && c.reply(r.trace[3]).Return? ==> r.out == c.reply(r.trace[2])
    ensures |r.trace| == 4 && c.reply(r.trace[3]).Throw? ==> r.out == c.reply(r.trace[3])
  {
    var get := GetTimeout;
    var original := c.reply(get);
    if original.Throw? then Run(original, [get])
    else
      var lift := LiftTimeout;
      var lifted := c.reply(lift);
      if lifted.Throw? then Run(lifted, [get, lift])
      else
        var sub := NativeCall(name, SubscribeArguments(name, arguments));
        var subscribed := c.reply(sub);
        var restore := NativeCall("setOption", [OptReadTimeout, original.v]);
        var restored := c.reply(restore);
        Run(if restored.Throw? then restored else subscribed, [get, lift, sub, restore])
  }

  /** A call of a user closure: which closure and with which arguments. */
  datatype UserCall = UserCall(fn: nat, args: seq<Val>)

  /** Calling `f` with `args`: adapters forward to the callback they wrap,
      user closures are the end of the chain; a non-callable or too few
      arguments raise (`None`). */
  function Invoke(f: Val, args: seq<Val>): Option<UserCall>
    decreases f
  {
    match f
    case VFn(UserFn(id)) => Some(UserCall(id, args))
    case VFn(ChannelAdapter(cb)) => if |args| < 3 then None else Invoke(cb, [args[2], args[1]])
    case VFn(PatternAdapter(cb)) => if |args| < 4 then None else Invoke(cb, [args[3], args[2]])
    case _ => None
  }

  /** The native `subscribe` callback `(redis, channel, message)` reaches the
      user's callback as `(message, channel)`. */
  lemma ChannelAdapterSwaps(cb: nat, redis: Val, channel: Val, message: Val)
    ensures Invoke(SubscribeArguments("subscribe", ListOf([VNull, VFn(UserFn(cb))]))[1], [redis, channel, message])
         == Some(UserCall(cb, [message, channel]))
  {
    assert FieldOr(ListOf([VNull, VFn(UserFn(cb))]), KInt(1), VNull) == VFn(UserFn(cb));
  }

  /** The native `psubscribe` callback `(redis, pattern, channel, message)`
      reaches the user's callback as `(message, channel)`: the pattern is dropped. */
  lemma PatternAdapterSwaps(cb: nat, redis: Val, pattern: Val, channel: Val, message: Val)
    ensures Invoke(SubscribeArguments("psubscribe", ListOf([VNull, VFn(UserFn(cb))]))[1], [redis, pattern, channel, message])
         == Some(UserCall(cb, [message, channel]))
  {
    assert FieldOr(ListOf([VNull, VFn(UserFn(cb))]), KInt(1), VNull) == VFn(UserFn(cb));
  }
}
